=== FILE: README.md ===
# Personal-finance statistics: a Dafny model

This project models the statistics layer of a small personal-finance web
service and proves properties about it. Transactions are stored in one
table, with a date, a description, two category levels, a type, an amount
and a source. Three GET endpoints summarise the Sale transactions:

- by date (`by=year|month|day|quarter`);
- by second-level category;
- by source.

Each endpoint takes an optional strict date window. Each answers a total,
a count, the largest and smallest amount, the query, and one bucket per
distinct key with that key's sum.

The model also covers these parts of the service:

- the transaction listing, with its look-back periods;
- the batch upload, with its per-element record construction and its error
  handling inside the request's commit/rollback wrapper;
- the single-transaction builder of the controller, which sanitises foreign
  keys and parses `MM/DD/YYYY` dates;
- the record's `serialize` mapping;
- the `dump_date` and `dump_datetime` formatters;
- the lookup tables keyed by name.

Files (one module each):

- `common.dfy`: `Option` and `Result`, the exception kinds, and sequence
  filtering and sums.
- `decimal.dfy`: `str()` of integers, zero padding, reading digits back,
  and Python's string order.
- `calendar.dfy`: dates and times without microseconds, quarters, and
  chronological order.
- `datetime_utils.dfy`: `dump_date` and `dump_datetime`.
- `strptime.dfy`: the `%Y-%m-%d` and `%m/%d/%Y` parsers.
- `models.dfy`:
  - the stored row;
  - the unflushed model, whose attributes are arbitrary JSON values;
  - `serialize`;
  - the NOT NULL constraints;
  - the lookup tables.
- `query.dfy`: request arguments, the strict window, the Sale filter and
  column projection.
- `aggregation.dfy`:
  - `groupby(...).sum()` as an ordered insertion;
  - the summary (total, count, max, min);
  - the `resp["data"].append` loop.
- `statistics_by_date.dfy`, `statistics_by_category.dfy`,
  `statistics_by_source.dfy`: the three endpoints.
- `session.dfy`: the database session as a class. It has pending and
  stored rows, commit, rollback, and the per-request wrapper.
- `transactions.dfy`: the listing and the upload, as written and with the
  missing rollback added.
- `transaction_controller.dfy`: `add_transaction`.

The model has no clock and no database connection:

- "now", the current table contents and the system user name are
  parameters;
- what the database would refuse beyond NOT NULL is a parameter `refusal`;
- amounts are integers (cents).

## Model

| member | source | states |
|---|---|---|
| Decimal.NatToStringRoundTrip | app/namespace/statistics_by_date.py:43-45 | `str()` of a year or month number reads back as that number |
| Decimal.LexDigits | app/namespace/statistics_by_date.py:55 | on digit strings of equal length, Python's string order is numeric order, both directions |
| Decimal.LexTransitive | app/namespace/statistics_by_date.py:55 | string order, as `sort_values` uses it, is transitive |
| Decimal.LexConnected | app/namespace/statistics_by_date.py:55 | of two different strings, one sorts before the other |
| Calendar.Quarter | app/namespace/statistics_by_date.py:47-48 | `dt.quarter` is between 1 and 4, and the month lies in that quarter's three months |
| DateTimeUtils.DumpDate | app/lib/datetime_utils.py:1-4 | None exactly for None; otherwise a 10-character text |
| DateTimeUtils.DumpDateTime | app/lib/datetime_utils.py:7-10 | None exactly for None; otherwise a 19-character text |
| DateTimeUtils.FormatDateFields | app/lib/datetime_utils.py:4 | `%Y-%m-%d`: dashes at 4 and 7, and digit fields that read back as the year, month and day |
| DateTimeUtils.FormatDateTimeFields | app/lib/datetime_utils.py:10 | `%Y-%m-%d %H:%M:%S`: the date text, a space at position 10, colons at 13 and 16, and two-digit fields that read back as hour, minute and second |
| DateTimeUtils.DumpDateIsPrefix | app/lib/datetime_utils.py:1-10 | `dump_date(v)` is the first ten characters of `dump_datetime(v)` |
| DateTimeUtils.FormatDateInjective | app/lib/datetime_utils.py:4 | equal date texts mean the same calendar day |
| DateTimeUtils.FormatDateOfSameDay | app/lib/datetime_utils.py:4 | two times on the same calendar day give the same date text |
| DateTimeUtils.FormatDateTimeInjective | app/lib/datetime_utils.py:10 | equal datetime texts mean equal datetimes |
| DateTimeUtils.FormatDateOrder | app/lib/datetime_utils.py:4 | date texts compare as strings exactly as their days compare in time |
| Strptime.MakeDate | app/namespace/statistics_by_date.py:35 | a parsed year, month and day become a date exactly when the day exists in that month; the time is midnight |
| Strptime.ParseIsoDate | app/namespace/statistics_by_date.py:35 | `strptime(s, '%Y-%m-%d')` gives midnight of a date or raises ValueError |
| Strptime.ParseUsDate | app/controller/transaction_controller.py:24 | `strptime(s, '%m/%d/%Y')` gives midnight of a date or raises ValueError |
| Strptime.ParseIsoDateRoundTrip | app/namespace/statistics_by_date.py:35 | parsing a `dump_date` text gives midnight of that day |
| Strptime.ParseUsDateRoundTrip | app/controller/transaction_controller.py:24 | parsing a date written as `MM/DD/YYYY` gives midnight of that day |
| Strptime.YearFieldSpelling | app/namespace/statistics_by_date.py:35 | `%Y` reads a year from its four-digit spelling and from no other text |
| Strptime.MonthFieldSpelling | app/namespace/statistics_by_date.py:35 | `%m` reads month m from "0m"/"mm" or the unpadded `str(m)`, and from no other text |
| Strptime.DayFieldSpelling | app/namespace/statistics_by_date.py:35 | `%d` reads day d from its zero-padded, unpadded or (below 10) space-padded spelling, and from no other text |
| Strptime.IsoSpellingParses | app/namespace/statistics_by_date.py:35 | "YYYY-" + any spelling of the month + "-" + any spelling of the day (`2024-1-5` included) parses to midnight of that date |
| Strptime.ParseIsoDateSpellings | app/namespace/statistics_by_date.py:35 | `strptime(s, '%Y-%m-%d')` gives midnight of a date if and only if s is its four year digits, a dash, a spelling of its month, a dash and a spelling of its day |
| Strptime.UsSpellingParses | app/controller/transaction_controller.py:24 | any spelling of the month + "/" + any spelling of the day + "/YYYY" (`1/5/2024` included) parses to midnight of that date |
| Strptime.ParseUsDateSpellings | app/controller/transaction_controller.py:24 | `strptime(s, '%m/%d/%Y')` gives midnight of a date if and only if s is a spelling of its month, a slash, a spelling of its day, a slash and its four year digits |
| Models.FromOption | app/db/models/models.py:50 | a NULL `notes` serialises as null, any other value as its text |
| Models.SerializeKeys | app/db/models/models.py:46-60 | `serialize` writes exactly the thirteen columns of the table, under thirteen distinct keys: transaction_id, transaction_date, description, notes, category_level1, category_level2, type, amount, source, created_at, created_by, modified_at, modified_by |
| Models.ColumnNames | app/db/models/models.py:46-60 | the dict keys of the columns are exactly those thirteen names |
| Models.ColumnNameInjective | app/db/models/models.py:46-60 | no two columns share a dict key |
| Models.SerializedDateReadsBack | app/db/models/models.py:48 | the serialised `transaction_date` is the `dump_date` text, and parsing it gives midnight of the stored day |
| Models.SerializeKeepsAllButTime | app/db/models/models.py:46-60 | two rows serialise equally exactly when they differ at most in the time of day of `transaction_date` |
| Models.EqualSerializationSameRow | app/db/models/models.py:46-60 | equal serialisations mean equal rows, up to the time of day of `transaction_date` |
| Models.SameDate | app/db/models/models.py:48 | equal serialisations mean the same transaction day |
| Models.SameCreatedAt | app/db/models/models.py:56 | equal serialisations mean equal `created_at` |
| Models.SameModifiedAt | app/db/models/models.py:58 | equal serialisations mean equal `modified_at` |
| Models.SameTextColumns | app/db/models/models.py:49-53 | equal serialisations have equal description, notes, both category levels and type (`ColumnValue` writes each from the record's own field) |
| Models.SameOtherColumns | app/db/models/models.py:47-59 | equal serialisations have equal id, amount, source, `created_by` and `modified_by` (`ColumnValue` writes each from the record's own field) |
| Models.SameRowEqualSerialization | app/db/models/models.py:46-60 | rows equal up to the time of day of `transaction_date` serialise equally |
| Models.InsertLookup | app/db/models/models.py:5-23 | inserting into a category, source or type table fails with IntegrityError exactly when the name is taken; otherwise it appends and keeps names unique |
| Models.LookupByName | app/db/models/models.py:5-23 | a lookup by primary key finds a row exactly when the name is present, and the row it finds carries that name |
| Models.LookupAfterInsert | app/db/models/models.py:5-23 | after inserting a new name, a lookup by that name finds the inserted row |
| Query.Arg | app/namespace/statistics_by_date.py:23-24 | `request.args.get(name, "")` |
| Query.ParseBound | app/namespace/statistics_by_date.py:33-38 | an empty bound imposes nothing; otherwise it is parsed as `%Y-%m-%d`, and a malformed bound is that ValueError |
| Query.Window | app/namespace/statistics_by_date.py:33-38 | keeps exactly the rows strictly after start and strictly before end, each only when given, with every copy of a kept row and no copy of a dropped one |
| Query.WindowUnbounded | app/namespace/statistics_by_date.py:33-38 | without bounds every row is kept, in order |
| Query.WindowExcludesBounds | app/namespace/statistics_by_date.py:33-38 | no kept row falls exactly on either bound |
| Query.FetchWindow | app/namespace/statistics_by_date.py:32-39 | the start bound's error wins, then the end bound's; otherwise the window of the table |
| Query.SaleOnly | app/namespace/statistics_by_date.py:42 | keeps exactly the rows whose type is "Sale", every copy of each |
| Query.Project | app/namespace/statistics_by_date.py:51 | `.loc[:, [key, "amount"]]`: one (key, amount) row per record, in order |
| Query.LexTotal | app/namespace/statistics_by_date.py:55 | string order is a strict total order on any set of keys |
| Aggregation.GroupSumCorrect | app/namespace/statistics_by_date.py:51 | the grouping has every key exactly once, each bucket is its key's sum, and the buckets add up to the total |
| Aggregation.GroupSumSorted | app/namespace/statistics_by_category.py:52-53 | under a strict total order on the keys, the buckets come out strictly ascending |
| Aggregation.MaxOf | app/namespace/statistics_by_date.py:67 | `amount.max()`: None (NaN) exactly for no rows; otherwise an attained upper bound |
| Aggregation.MinOf | app/namespace/statistics_by_date.py:68 | `amount.min()`: None (NaN) exactly for no rows; otherwise an attained lower bound |
| Aggregation.CopyBuckets | app/namespace/statistics_by_date.py:71-90 | the append loop gives one `{field: key, "amount": sum}` per bucket, in order, and the entries add up to the buckets' total |
| Aggregation.Summarize | app/namespace/statistics_by_date.py:65-90 | the response holds the total, count, max, min and query. Its entries have exactly the distinct keys, once each; each entry holds its key's sum; the entries add up to the total; they come in the given order |
| StatisticsByDate.ParseBy | app/namespace/statistics_by_date.py:25-31 | accepted exactly for year, month, day and quarter, read back as that name; anything else is the ClientException |
| StatisticsByDate.DayKeyIsSerializedDate | app/namespace/statistics_by_date.py:46 | the day key is the serialised `transaction_date` |
| StatisticsByDate.QuarterKeyShape | app/namespace/statistics_by_date.py:47-48 | the quarter key is `str(year)` + "-" + one digit + "Q"; the part before the dash reads back as the year, and the digit q is the quarter holding the month (3q-2 <= month <= 3q) |
| StatisticsByDate.MonthKeyReadsBack | app/namespace/statistics_by_date.py:43-44 | `pd.to_datetime` reads the unpadded month key back as that year and month |
| StatisticsByDate.MonthOrderChronological | app/namespace/statistics_by_date.py:52 | month buckets sort by year, then month, both directions |
| StatisticsByDate.MonthOrderIsNotLexical | app/namespace/statistics_by_date.py:43-52 | "2024-2" sorts before "2024-10" by date, though after it as text |
| StatisticsByDate.DayOrderChronological | app/namespace/statistics_by_date.py:58 | day buckets sort by date, and that is also their text order, both directions |
| StatisticsByDate.FourDigitYear | app/namespace/statistics_by_date.py:45 | `str(year)` of a year from 1000 to 9999 is four digits that read back as the year |
| StatisticsByDate.YearOrderChronological | app/namespace/statistics_by_date.py:55 | for four-digit years, year keys compare as text exactly as the years compare |
| StatisticsByDate.QuarterOrderChronological | app/namespace/statistics_by_date.py:61 | for four-digit years, quarter keys compare as text exactly as (year, quarter) compare |
| StatisticsByDate.MonthConnected | app/namespace/statistics_by_date.py:52 | of two different month keys, one sorts before the other |
| StatisticsByDate.MonthLessTransitive | app/namespace/statistics_by_date.py:52 | month order is transitive |
| StatisticsByDate.MonthTotal | app/namespace/statistics_by_date.py:52 | month order is a strict total order on month keys |
| StatisticsByDate.DayConnected | app/namespace/statistics_by_date.py:58 | of two different day keys, one sorts before the other |
| StatisticsByDate.DayLessTransitive | app/namespace/statistics_by_date.py:58 | day order is transitive |
| StatisticsByDate.DayTotal | app/namespace/statistics_by_date.py:58 | day order is a strict total order on day keys |
| StatisticsByDate.DateRows | app/namespace/statistics_by_date.py:43-51 | each Sale row becomes (its bucket key for the granularity, its amount), in order |
| StatisticsByDate.KeysTotallyOrdered | app/namespace/statistics_by_date.py:50-61 | the sort each granularity uses totally orders the keys it meets |
| StatisticsByDate.Get | app/namespace/statistics_by_date.py:22-92 | A bad `by` is the ClientException, before any query. A malformed bound is its ValueError. An empty window is an AttributeError. A Sale date outside pandas' range is a ValueError, and so, by month, is a Sale whose month key reads back as a month start outside that range. Otherwise the answer summarises exactly the Sale rows of the window by the granularity's key, sorted by its order |
| StatisticsByDate.ConvertibleDates | app/namespace/statistics_by_date.py:43-52 | the Sale dates the handler gets through are those pandas can hold, except by month the 22nd to 30th of September 1677, whose key reads back as 1677-09-01 |
| StatisticsByDate.SeptemberOf1677 | app/namespace/statistics_by_date.py:51-52 | a Sale of 1677-09-25 is in pandas' range and is answered by day, but by month its key "1677-9" stops the sort |
| StatisticsByDate.YearBucketsChronological | app/namespace/statistics_by_date.py:53-55 | year buckets sorted as text come out year by year |
| StatisticsByDate.QuarterBucketsChronological | app/namespace/statistics_by_date.py:59-61 | quarter buckets sorted as text come out quarter by quarter |
| StatisticsByCategory.Selected | app/namespace/statistics_by_category.py:35-43 | keeps exactly the window's Sale rows, restricted to an exact `category_level2` match when a category is given, with every copy of a kept row |
| StatisticsByCategory.CategoryRows | app/namespace/statistics_by_category.py:52 | one (category_level2, amount) row per record, in order |
| StatisticsByCategory.Get | app/namespace/statistics_by_category.py:32-64 | A malformed bound is its ValueError. An empty selection answers the empty list, and only then. Otherwise the answer summarises the selection by category in ascending order |
| StatisticsByCategory.OneCategoryOneBucket | app/namespace/statistics_by_category.py:42-53 | with a category given and rows selected, the data is a single entry for that category, carrying the whole total |
| StatisticsByCategory.CategoryBucketIsFilteredTotal | app/namespace/statistics_by_category.py:42-53 | a category's bucket in the unrestricted answer equals the total of the answer restricted to it |
| StatisticsBySource.SourceRows | app/namespace/statistics_by_source.py:46 | one (source, amount) row per record, in order |
| StatisticsBySource.Get | app/namespace/statistics_by_source.py:31-58 | A malformed bound is its ValueError. An empty Sale selection is the KeyError of `.loc` on a frame without columns, and only then. Otherwise the answer summarises the selection by source in ascending order |
| StatisticsBySource.SameSummaryAsByCategory | app/namespace/statistics_by_source.py:48-53 | over the same rows, by source and by category give the same total, count, max, min and sum of entries |
| DbSession.CommitOutcome | app/db/models/models.py:29-41 | an empty flush succeeds; a row with NULL in a NOT NULL column is an IntegrityError; a successful commit stores only rows that meet every constraint |
| DbSession.Session.constructor | app/utils/db_connection.py:22 | a fresh session over the table, with nothing pending |
| DbSession.Session.Add | app/namespace/transactions.py:83 | `session.add` appends to the pending rows and changes nothing stored |
| DbSession.Session.Commit | app/namespace/transactions.py:84 | An inactive session raises PendingRollbackError and changes nothing. Otherwise either the pending rows are stored, or the flush fails: nothing is stored and the session becomes inactive |
| DbSession.Session.Rollback | app/utils/db_connection.py:27 | drops the pending rows and reactivates the session; stored rows unchanged |
| DbSession.Session.EndRequest | app/utils/db_connection.py:19-31 | `class_method`: after a raised exception, rolls back and re-raises it; otherwise commits, rolling back on failure; always leaves a clean session |
| Transactions.LookbackDays | app/namespace/transactions.py:24-43 | exactly the six periods 1Mo, 3Mo, 6Mo, 1Yr, 3Yr and 5Yr have a look-back, of 30 to 1825 days |
| Transactions.Cutoff | app/namespace/transactions.py:23-25 | now minus the look-back, or OverflowError when that falls before year 1 |
| Transactions.Listed | app/namespace/transactions.py:22-43 | any other period (the default "All" included) lists every row; a known period lists exactly the rows at or after the cutoff, with every copy of each |
| Transactions.LongerPeriodListsMore | app/namespace/transactions.py:24-41 | a longer period lists every row a shorter one does |
| Transactions.ViewAgreesWithSerializeOnText | app/namespace/transactions.py:49-52 | Memo, Description, category_level1 and Category are the serialised notes, description and category levels |
| Transactions.ViewAgreesWithSerializeOnOthers | app/namespace/transactions.py:47-55 | id, Type, Amount and Source are the serialised id, type, amount and source |
| Transactions.ViewDateExtendsSerializedDate | app/namespace/transactions.py:48 | "Transaction Date" keeps the time of day; its first ten characters are the serialised date |
| Transactions.Get | app/namespace/transactions.py:20-58 | one view object per listed row, in order, or the cutoff's error |
| Transactions.Field | app/namespace/transactions.py:69-76 | `records.get(key, "")` |
| Transactions.NewModelNotNull | app/namespace/transactions.py:68-81 | an uploaded object meets the NOT NULL constraints exactly when none of its required keys is an explicit null |
| Transactions.UploadAuditFields | app/namespace/transactions.py:77-80 | every uploaded model has the system user and the request time in both audit pairs |
| Transactions.FirstNonObject | app/namespace/transactions.py:67-69 | the elements before the index are objects, and the one at the index is not |
| Transactions.ObjectModels | app/namespace/transactions.py:67-82 | one model per object, in order |
| Transactions.BuildModels | app/namespace/transactions.py:64-83 | a body without failure yields one model per element; a body that is not a list adds nothing |
| Transactions.AddUploaded | app/namespace/transactions.py:67-83 | the loop adds the models of the elements before the first non-object, then stops with its error |
| Transactions.Post | app/namespace/transactions.py:60-87 | A loop failure answers 400 with the error, leaving the added models pending. A good commit answers 200 and stores them. A refused commit answers 400 with that error and leaves the session inactive |
| Transactions.HandlePost | app/namespace/transactions.py:60-87 | the handler inside the wrapper ends as `PostOutcome` says |
| Transactions.UploadOfRowThenNumber | app/namespace/transactions.py:67-83 | the body `[row, 1]`, row a well-typed object, adds the model of row and stops at `1`; that model meets every NOT NULL constraint, so a database that takes the row commits it |
| Transactions.PartialUploadCommittedDespiteFailure | app/namespace/transactions.py:86-87 | as written, an array of k >= 1 objects the database accepts followed by a non-object is answered 400 "Upload files failed." while those k rows are committed |
| Transactions.PostWithRollback | app/namespace/transactions.py:60-87 | with a rollback on failure: 200 stores every model; any failure answers 400 and stores nothing; the session ends clean |
| Transactions.HandlePostFixed | app/namespace/transactions.py:60-87 | the corrected handler inside the wrapper ends as `FixedPostOutcome` says |
| Transactions.FixedPostIsAllOrNothing | app/namespace/transactions.py:84-87 | corrected: 200 exactly when the loop and commit succeed, and then the whole upload is stored; otherwise 400 and nothing stored |
| Transactions.AcceptedUploadStoresEveryElement | app/namespace/transactions.py:67-85 | corrected: a 200 reply means every element was an object and became one new row, in order |
| TransactionController.Lookup | app/controller/transaction_controller.py:25-26 | `dict.get(key)`: the value, or None when missing |
| TransactionController.Sanitize | app/controller/transaction_controller.py:16-19 | `get(key) or None`: NULL exactly when missing or falsy, otherwise the value unchanged |
| TransactionController.ParseTransactionDate | app/controller/transaction_controller.py:24 | a missing key is KeyError; a text goes through `%m/%d/%Y`; any other value is TypeError |
| TransactionController.NewTransaction | app/controller/transaction_controller.py:23-36 | building fails exactly when the date does, with the date's error |
| TransactionController.NewTransactionFields | app/controller/transaction_controller.py:23-36 | the built model has the parsed date at midnight, description, notes and amount as given, each of category_level1, category_level2, type_name and source as given when truthy and NULL otherwise, and the same time and user in both audit pairs |
| TransactionController.UsDateAccepted | app/controller/transaction_controller.py:24 | a date written as `MM/DD/YYYY` is accepted and stored as midnight of that day |
| TransactionController.NewTransactionNotNull | app/controller/transaction_controller.py:16-36 | the model meets NOT NULL exactly when the four foreign keys are truthy and description and amount are present |
| TransactionController.AddTransaction | app/controller/transaction_controller.py:10-37 | exactly one `session.add` of the built model; on a date error nothing is added; nothing stored changes |

## Left out

- Amounts are integers (cents). The `db.Float` column (app/db/models/models.py:36) and float rounding in pandas sums are not modelled.
- Datetimes have no microseconds. `str(datetime)` and `str(datetime.now())` are modelled as `%Y-%m-%d %H:%M:%S`, without the `.ffffff` suffix Python adds when microseconds are non-zero.
- The two `datetime.now()` calls of one upload element, and of `add_transaction`, are one `now` parameter.
- `SYSTEM_USER_NAME` is not part of this model (its value lives in configuration); it is the parameter `systemUser`.
- The database is not modelled beyond the NOT NULL constraints and primary-key uniqueness of the lookup tables. Type coercion, string length limits and foreign keys are folded into one parameter, `refusal`: whether the database refuses an otherwise valid flush.
- Exception texts from pandas, SQLAlchemy and the database are stand-ins; only their kinds are meant. A 500 reply carries the error text as its body, not Flask's error page.
- The model attribute `type_name` (app/namespace/statistics_by_category.py:35, app/namespace/statistics_by_source.py:33, app/controller/transaction_controller.py:29) does not exist on the model, whose column is `type` (app/db/models/models.py:35). It is modelled as that one type field, so the errors this mismatch raises are not reproduced.
- `DateTimeUtils.DumpDate`, `DateTimeUtils.DumpDateTime`: always pad the year to four digits. glibc's `strftime("%Y")`, which Python uses on Linux, does not pad years below 1000, so such years are not formatted as the source would format them.
- `Strptime.ParseIsoDate`, `Strptime.ParseUsDate`: their own contracts say only that the result is a midnight or a ValueError; which texts are accepted, and as which date, is stated by `Strptime.ParseIsoDateSpellings` and `Strptime.ParseUsDateSpellings`. Digits are ASCII only. Python's `\d` in the `strptime` patterns also matches other Unicode decimal digits.
- `StatisticsByDate.YearBucketsChronological`, `StatisticsByDate.QuarterBucketsChronological`: stated for years from 1000 on. That range is what pandas accepts (1677-09-22 to 2262-04-11), and `Get` rejects dates outside it.
- The unreachable `else` of the granularity dispatch (app/namespace/statistics_by_date.py:62-64) has no counterpart, because `ParseBy` already rejects every other value.
- pandas' NaN for the max and min of no rows is `None`; NaN arithmetic is not modelled.
- `DBSession.func` (app/utils/db_connection.py:5-17) behaves like `class_method` and is not modelled separately. The session is created by the wrapper, not by `db.session()`.
- `Transactions.Post`, `Transactions.PostWithRollback`, `Transactions.HandlePost`, `Transactions.HandlePostFixed`: require a clean session, which is what a fresh request session is.
- `request.json` failing to parse (an unsupported media type or a malformed body) is not modelled. The body is a JSON value.
- `print`, logging (app/controller/transaction_controller.py:22), routing, app setup, configuration, the JSON encoder, the lookup-table handlers and the `put`/`delete` stubs (app/namespace/transactions.py:89-97) do no computation the statistics depend on.
- `request.args.to_dict()` is the argument map itself; repeated query arguments are not modelled.
- `DbSession.Session.EndRequest`: models an `Exception` raised by the handler. `ClientException` (app/lib/exception.py:5) derives from `BaseException`, so `except Exception` in `class_method` lets it through with neither commit nor rollback. Only the statistics handlers raise it, before touching the session, so this is not observable there.

## Findings

| source | as written | input that shows it | evidently intended | confidence | as-written member | corrected member |
|---|---|---|---|---|---|---|
| app/namespace/transactions.py:86-87 | The `except` branch answers 400 but does not roll back. `DBSession.class_method` then commits the models the loop had added before it failed (app/utils/db_connection.py:23-25). | The body `[{"transaction_date": "2024-01-05", "description": "Weekly shop", "category_level1": "Food", "category_level2": "Groceries", "type": "Sale", "amount": 5, "source": "Card"}, 1]`: the object is added, then `1.get` raises AttributeError. The reply is "Upload files failed. …" with 400, yet the wrapper's commit stores the object's row (every column well-typed, so the database takes it). | An upload answered "failed" stores nothing: roll back in the `except` branch. | not executed | Transactions.PartialUploadCommittedDespiteFailure | Transactions.FixedPostIsAllOrNothing |

=== FILE: aggregation.dfy ===
/**
 * The group-and-summarise step the three statistics endpoints share: a
 * pandas `groupby(key, as_index=False).sum()` over (key, amount) rows, the
 * sort of the resulting buckets, the total/count/max/min summary of the
 * amount column, and the loop that copies the buckets into resp["data"].
 */
module Aggregation {
  import opened Common

  /** One row of the projected frame: the grouping column and the amount. */
  datatype Keyed = Keyed(key: string, amount: int)

  /** One row of the grouped frame: a distinct key and the sum of its amounts. */
  datatype Bucket = Bucket(key: string, amount: int)

  /** One element of resp["data"]: {field: key, "amount": amount}. */
  datatype DataEntry = DataEntry(field: string, key: string, amount: int)

  /**
   * The JSON body of a statistics response. max and min are None where
   * pandas reports NaN (the amount column is empty).
   */
  datatype Statistics = Statistics(
    total: int,
    count: nat,
    max: Option<int>,
    min: Option<int>,
    query: map<string, string>,
    data: seq<DataEntry>)

  // ---------------------------------------------------------------- rows

  /** The amount column of a frame. */
  function Amounts(rows: seq<Keyed>): (xs: seq<int>)
    ensures |xs| == |rows|
    ensures forall i :: 0 <= i < |rows| ==> xs[i] == rows[i].amount
  {
    seq(|rows|, i requires 0 <= i < |rows| => rows[i].amount)
  }

  /** The distinct values of the grouping column. */
  function RowKeys(rows: seq<Keyed>): set<string>
  {
    set i | 0 <= i < |rows| :: rows[i].key
  }

  /** The sum of the amounts of the rows whose key is k. */
  function SumFor(rows: seq<Keyed>, k: string): int
  {
    if rows == [] then 0
    else SumFor(rows[..|rows| - 1], k) + (if rows[|rows| - 1].key == k then rows[|rows| - 1].amount else 0)
  }

  /** df.amount.sum(): 0 for an empty column. */
  function Total(rows: seq<Keyed>): int
  {
    Sum(Amounts(rows))
  }

  lemma TotalSnoc(rows: seq<Keyed>)
    requires rows != []
    ensures Total(rows) == Total(rows[..|rows| - 1]) + rows[|rows| - 1].amount
  {
    assert Amounts(rows)[..|rows| - 1] == Amounts(rows[..|rows| - 1]);
  }

  lemma TotalAppendOne(rows: seq<Keyed>, r: Keyed)
    ensures Total(rows + [r]) == Total(rows) + r.amount
  {
    TotalSnoc(rows + [r]);
    assert (rows + [r])[..|rows|] == rows;
  }

  lemma SumForAppendOne(rows: seq<Keyed>, r: Keyed, k: string)
    ensures SumFor(rows + [r], k) == SumFor(rows, k) + (if r.key == k then r.amount else 0)
  {
    assert (rows + [r])[..|rows|] == rows;
  }

  lemma RowKeysSnoc(rows: seq<Keyed>)
    requires rows != []
    ensures RowKeys(rows) == RowKeys(rows[..|rows| - 1]) + {rows[|rows| - 1].key}
  {
    var init := rows[..|rows| - 1];
    forall k | k in RowKeys(rows) ensures k in RowKeys(init) + {rows[|rows| - 1].key} {
      var i :| 0 <= i < |rows| && rows[i].key == k;
      if i < |rows| - 1 { assert init[i].key == k; }
    }
    forall k | k in RowKeys(init) ensures k in RowKeys(rows) {
      var i :| 0 <= i < |init| && init[i].key == k;
      assert rows[i].key == k;
    }
  }

  /** A key that no row carries sums to nothing. */
  lemma {:induction false} SumForAbsent(rows: seq<Keyed>, k: string)
    requires k !in RowKeys(rows)
    ensures SumFor(rows, k) == 0
  {
    if rows != [] {
      RowKeysSnoc(rows);
      SumForAbsent(rows[..|rows| - 1], k);
    }
  }

  // ------------------------------------------------------------- buckets

  function BucketKeys(g: seq<Bucket>): set<string>
  {
    set i | 0 <= i < |g| :: g[i].key
  }

  predicate DistinctKeys(g: seq<Bucket>)
  {
    forall i, j :: 0 <= i < j < |g| ==> g[i].key != g[j].key
  }

  /** Every earlier bucket's key sorts before every later one's. */
  predicate SortedBy(g: seq<Bucket>, less: (string, string) -> bool)
  {
    forall i, j :: 0 <= i < j < |g| ==> less(g[i].key, g[j].key)
  }

  /** The amount filed under key k (summed over every bucket carrying k). */
  function AmountOf(g: seq<Bucket>, k: string): int
  {
    if g == [] then 0 else (if g[0].key == k then g[0].amount else 0) + AmountOf(g[1..], k)
  }

  /** The sum of the bucket amounts. */
  function BucketTotal(g: seq<Bucket>): int
  {
    if g == [] then 0 else g[0].amount + BucketTotal(g[1..])
  }

  /** less is a strict total order on the keys S: irreflexive, transitive and connected. */
  ghost predicate StrictTotalOn(less: (string, string) -> bool, S: set<string>)
  {
    (forall a :: a in S ==> !less(a, a)) &&
    (forall a, b, c :: a in S && b in S && c in S && less(a, b) && less(b, c) ==> less(a, c)) &&
    (forall a, b :: a in S && b in S && a != b ==> less(a, b) || less(b, a))
  }

  lemma BucketKeysCons(g: seq<Bucket>)
    requires g != []
    ensures BucketKeys(g) == {g[0].key} + BucketKeys(g[1..])
  {
    forall k | k in BucketKeys(g) ensures k in {g[0].key} + BucketKeys(g[1..]) {
      var i :| 0 <= i < |g| && g[i].key == k;
      if i > 0 { assert g[1..][i - 1].key == k; }
    }
    forall k | k in BucketKeys(g[1..]) ensures k in BucketKeys(g) {
      var i :| 0 <= i < |g[1..]| && g[1..][i].key == k;
      assert g[i + 1].key == k;
    }
  }

  /** In a list of distinct keys, a bucket's amount is all that is filed under its key. */
  lemma {:induction false} AmountOfDistinct(g: seq<Bucket>, i: nat)
    requires DistinctKeys(g) && i < |g|
    ensures AmountOf(g, g[i].key) == g[i].amount
  {
    if i == 0 {
      AmountOfAbsent(g[1..], g[0].key);
    } else {
      AmountOfDistinct(g[1..], i - 1);
    }
  }

  lemma {:induction false} AmountOfAbsent(g: seq<Bucket>, k: string)
    requires forall i :: 0 <= i < |g| ==> g[i].key != k
    ensures AmountOf(g, k) == 0
  {
    if g != [] {
      AmountOfAbsent(g[1..], k);
    }
  }

  /** Adding a to the bucket whose key is k (k must already be present). */
  function AddTo(g: seq<Bucket>, k: string, a: int): (r: seq<Bucket>)
    ensures |r| == |g|
    ensures forall i :: 0 <= i < |g| ==> r[i].key == g[i].key
  {
    if g == [] then []
    else if g[0].key == k then [Bucket(k, g[0].amount + a)] + g[1..]
    else [g[0]] + AddTo(g[1..], k, a)
  }

  lemma {:induction false} AddToProps(g: seq<Bucket>, k: string, a: int)
    requires k in BucketKeys(g)
    ensures BucketKeys(AddTo(g, k, a)) == BucketKeys(g)
    ensures BucketTotal(AddTo(g, k, a)) == BucketTotal(g) + a
    ensures forall x :: AmountOf(AddTo(g, k, a), x) == AmountOf(g, x) + (if x == k then a else 0)
  {
    var r := AddTo(g, k, a);
    BucketKeysCons(g);
    BucketKeysCons(r);
    if g[0].key != k {
      AddToProps(g[1..], k, a);
    } else {
      assert r[1..] == g[1..];
    }
  }

  /** Inserting a bucket with a new key at its place in the order. */
  function Insert(g: seq<Bucket>, b: Bucket, less: (string, string) -> bool): (r: seq<Bucket>)
    ensures |r| == |g| + 1
  {
    if g == [] then [b]
    else if less(b.key, g[0].key) then [b] + g
    else [g[0]] + Insert(g[1..], b, less)
  }

  lemma {:induction false} InsertProps(g: seq<Bucket>, b: Bucket, less: (string, string) -> bool)
    ensures BucketKeys(Insert(g, b, less)) == BucketKeys(g) + {b.key}
    ensures BucketTotal(Insert(g, b, less)) == BucketTotal(g) + b.amount
    ensures forall x :: AmountOf(Insert(g, b, less), x) == AmountOf(g, x) + (if x == b.key then b.amount else 0)
  {
    var r := Insert(g, b, less);
    BucketKeysCons(r);
    if g != [] {
      BucketKeysCons(g);
      if less(b.key, g[0].key) {
        assert r[1..] == g;
      } else {
        InsertProps(g[1..], b, less);
      }
    }
  }

  lemma {:induction false} InsertKeepsOrder(g: seq<Bucket>, b: Bucket, less: (string, string) -> bool)
    requires SortedBy(g, less)
    requires b.key !in BucketKeys(g)
    requires StrictTotalOn(less, BucketKeys(g) + {b.key})
    ensures SortedBy(Insert(g, b, less), less)
  {
    if g != [] {
      BucketKeysCons(g);
      if less(b.key, g[0].key) {
        InsertAtFront(g, b, less);
      } else {
        var t := g[1..];
        assert BucketKeys(t) + {b.key} <= BucketKeys(g) + {b.key};
        InsertKeepsOrder(t, b, less);
        InsertProps(t, b, less);
        assert g[0].key in BucketKeys(g);
        assert less(g[0].key, b.key);
        FirstBeforeRest(g, b, Insert(t, b, less), less);
      }
    }
  }

  lemma InsertAtFront(g: seq<Bucket>, b: Bucket, less: (string, string) -> bool)
    requires g != [] && SortedBy(g, less) && less(b.key, g[0].key)
    requires StrictTotalOn(less, BucketKeys(g) + {b.key})
    ensures SortedBy([b] + g, less)
  {
    var r := [b] + g;
    forall j | 1 < j < |r| ensures less(b.key, r[j].key) {
      assert r[j] == g[j - 1];
      assert g[0].key in BucketKeys(g) && g[j - 1].key in BucketKeys(g);
      assert less(g[0].key, g[j - 1].key);
    }
  }

  lemma FirstBeforeRest(g: seq<Bucket>, b: Bucket, rt: seq<Bucket>, less: (string, string) -> bool)
    requires g != [] && SortedBy(g, less) && SortedBy(rt, less)
    requires less(g[0].key, b.key)
    requires BucketKeys(rt) == BucketKeys(g[1..]) + {b.key}
    ensures SortedBy([g[0]] + rt, less)
  {
    var t := g[1..];
    forall j | 0 <= j < |rt| ensures less(g[0].key, rt[j].key) {
      assert rt[j].key in BucketKeys(rt);
      if rt[j].key != b.key {
        var m :| 0 <= m < |t| && t[m].key == rt[j].key;
        assert g[m + 1].key == rt[j].key;
      }
    }
    var r := [g[0]] + rt;
    forall i, j | 0 <= i < j < |r| ensures less(r[i].key, r[j].key) {
      if i > 0 { assert r[i] == rt[i - 1] && r[j] == rt[j - 1]; }
      else { assert r[j] == rt[j - 1]; }
    }
  }

  /** Filing one row: add to its key's bucket, or open a new bucket at its place in the order. */
  function AddRow(g: seq<Bucket>, row: Keyed, less: (string, string) -> bool): seq<Bucket>
  {
    if row.key in BucketKeys(g) then AddTo(g, row.key, row.amount)
    else Insert(g, Bucket(row.key, row.amount), less)
  }

  /**
   * df.groupby(key, as_index=False).sum() followed by the sort of the
   * endpoint: one bucket per distinct key, holding the sum of that key's
   * amounts, the buckets ordered by less.
   */
  function GroupSum(rows: seq<Keyed>, less: (string, string) -> bool): seq<Bucket>
  {
    if rows == [] then []
    else AddRow(GroupSum(rows[..|rows| - 1], less), rows[|rows| - 1], less)
  }

  lemma AddToDistinct(g: seq<Bucket>, k: string, a: int)
    requires DistinctKeys(g)
    ensures DistinctKeys(AddTo(g, k, a))
  {
    var r := AddTo(g, k, a);
    assert forall i :: 0 <= i < |r| ==> r[i].key == g[i].key;
  }

  /** Filing one row adds its key, keeps the keys distinct and adds its amount to its key's sum. */
  lemma AddRowProps(g: seq<Bucket>, row: Keyed, less: (string, string) -> bool)
    requires DistinctKeys(g)
    ensures BucketKeys(AddRow(g, row, less)) == BucketKeys(g) + {row.key}
    ensures DistinctKeys(AddRow(g, row, less))
    ensures forall x :: AmountOf(AddRow(g, row, less), x) == AmountOf(g, x) + (if x == row.key then row.amount else 0)
    ensures BucketTotal(AddRow(g, row, less)) == BucketTotal(g) + row.amount
  {
    if row.key in BucketKeys(g) {
      AddToProps(g, row.key, row.amount);
      AddToDistinct(g, row.key, row.amount);
    } else {
      var b := Bucket(row.key, row.amount);
      InsertProps(g, b, less);
      InsertDistinct(g, b, less);
    }
  }

  /** The grouping is a partition: every key once, each bucket its key's sum, the sums adding up to the total. */
  lemma {:induction false} GroupSumCorrect(rows: seq<Keyed>, less: (string, string) -> bool)
    ensures BucketKeys(GroupSum(rows, less)) == RowKeys(rows)
    ensures DistinctKeys(GroupSum(rows, less))
    ensures forall k :: AmountOf(GroupSum(rows, less), k) == SumFor(rows, k)
    ensures BucketTotal(GroupSum(rows, less)) == Total(rows)
  {
    if rows != [] {
      var init, last := rows[..|rows| - 1], rows[|rows| - 1];
      GroupSumCorrect(init, less);
      RowKeysSnoc(rows);
      TotalSnoc(rows);
      AddRowProps(GroupSum(init, less), last, less);
    }
  }

  lemma {:induction false} InsertDistinct(g: seq<Bucket>, b: Bucket, less: (string, string) -> bool)
    requires DistinctKeys(g) && b.key !in BucketKeys(g)
    ensures DistinctKeys(Insert(g, b, less))
  {
    if g != [] {
      BucketKeysCons(g);
      var r := Insert(g, b, less);
      if less(b.key, g[0].key) {
        forall j | 0 < j < |r| ensures r[j].key != b.key { assert r[j] == g[j - 1]; }
      } else {
        var t := g[1..];
        assert DistinctKeys(t);
        InsertDistinct(t, b, less);
        InsertProps(t, b, less);
        var rt := Insert(t, b, less);
        forall j | 0 <= j < |rt| ensures rt[j].key != g[0].key {
          assert rt[j].key in BucketKeys(rt);
          if rt[j].key != b.key {
            var m :| 0 <= m < |t| && t[m].key == rt[j].key;
            assert g[m + 1].key == rt[j].key;
          }
        }
        assert r == [g[0]] + rt;
      }
    }
  }

  /** With a strict total order on the keys, the buckets come out strictly ascending. */
  lemma {:induction false} GroupSumSorted(rows: seq<Keyed>, less: (string, string) -> bool)
    requires StrictTotalOn(less, RowKeys(rows))
    ensures SortedBy(GroupSum(rows, less), less)
  {
    if rows != [] {
      var init, last := rows[..|rows| - 1], rows[|rows| - 1];
      var g := GroupSum(init, less);
      RowKeysSnoc(rows);
      GroupSumCorrect(init, less);
      GroupSumSorted(init, less);
      if last.key in BucketKeys(g) {
        var r := AddTo(g, last.key, last.amount);
        assert forall i :: 0 <= i < |r| ==> r[i].key == g[i].key;
      } else {
        InsertKeepsOrder(g, Bucket(last.key, last.amount), less);
      }
    }
  }

  // ------------------------------------------------------------ summary

  /** df.amount.max(): None (NaN) for an empty column. */
  function MaxOf(xs: seq<int>): (m: Option<int>)
    ensures m.None? <==> xs == []
    ensures m.Some? ==> (forall i :: 0 <= i < |xs| ==> xs[i] <= m.value)
    ensures m.Some? ==> exists i :: 0 <= i < |xs| && xs[i] == m.value
  {
    if xs == [] then None
    else
      var rest := MaxOf(xs[1..]);
      if rest.None? || xs[0] >= rest.value then Some(xs[0])
      else
        assert forall i :: 1 <= i < |xs| ==> xs[i] == xs[1..][i - 1];
        rest
  }

  /** df.amount.min(): None (NaN) for an empty column. */
  function MinOf(xs: seq<int>): (m: Option<int>)
    ensures m.None? <==> xs == []
    ensures m.Some? ==> (forall i :: 0 <= i < |xs| ==> m.value <= xs[i])
    ensures m.Some? ==> exists i :: 0 <= i < |xs| && xs[i] == m.value
  {
    if xs == [] then None
    else
      var rest := MinOf(xs[1..]);
      if rest.None? || xs[0] <= rest.value then Some(xs[0])
      else
        assert forall i :: 1 <= i < |xs| ==> xs[i] == xs[1..][i - 1];
        rest
  }

  /** The bucket amounts of a data list, summed. */
  function DataTotal(data: seq<DataEntry>): int
  {
    if data == [] then 0 else data[0].amount + DataTotal(data[1..])
  }

  /**
   * The `for idx, row in grouped.iterrows(): resp["data"].append(...)` loop:
   * one entry per bucket, in the buckets' order.
   */
  method CopyBuckets(field: string, groups: seq<Bucket>) returns (data: seq<DataEntry>)
    ensures |data| == |groups|
    ensures forall i :: 0 <= i < |groups| ==>
      data[i] == DataEntry(field, groups[i].key, groups[i].amount)
    ensures DataTotal(data) == BucketTotal(groups)
  {
    data := [];
    var i := 0;
    while i < |groups|
      invariant 0 <= i <= |groups|
      invariant |data| == i
      invariant forall j :: 0 <= j < i ==> data[j] == DataEntry(field, groups[j].key, groups[j].amount)
    {
      data := data + [DataEntry(field, groups[i].key, groups[i].amount)];
      i := i + 1;
    }
    CopiedTotal(field, groups, data);
  }

  lemma {:induction false} CopiedTotal(field: string, groups: seq<Bucket>, data: seq<DataEntry>)
    requires |data| == |groups|
    requires forall i :: 0 <= i < |groups| ==> data[i] == DataEntry(field, groups[i].key, groups[i].amount)
    ensures DataTotal(data) == BucketTotal(groups)
  {
    if groups != [] {
      CopiedTotal(field, groups[1..], data[1..]);
    }
  }

  /**
   * What a statistics body says about the frame it summarises: total, count,
   * max and min of the amount column, the echoed query, and one data entry
   * per distinct key holding that key's sum (so the entries add up to the
   * total), in the order less gives when less totally orders the keys.
   */
  ghost predicate Summarizes(s: Statistics, field: string, rows: seq<Keyed>,
                             less: (string, string) -> bool, query: map<string, string>)
  {
    s.total == Total(rows) && s.count == |rows| &&
    s.max == MaxOf(Amounts(rows)) && s.min == MinOf(Amounts(rows)) &&
    s.query == query &&
    (forall i :: 0 <= i < |s.data| ==> s.data[i].field == field) &&
    (forall k :: k in RowKeys(rows) <==> exists i :: 0 <= i < |s.data| && s.data[i].key == k) &&
    (forall i, j :: 0 <= i < j < |s.data| ==> s.data[i].key != s.data[j].key) &&
    (forall i :: 0 <= i < |s.data| ==> s.data[i].amount == SumFor(rows, s.data[i].key)) &&
    DataTotal(s.data) == s.total &&
    (StrictTotalOn(less, RowKeys(rows)) ==>
      forall i, j :: 0 <= i < j < |s.data| ==> less(s.data[i].key, s.data[j].key))
  }

  /** The response the endpoints build from a filtered frame. */
  method Summarize(field: string, rows: seq<Keyed>, less: (string, string) -> bool,
                   query: map<string, string>) returns (s: Statistics)
    ensures Summarizes(s, field, rows, less, query)
    ensures |s.data| == |GroupSum(rows, less)|
  {
    var groups := GroupSum(rows, less);
    GroupSumCorrect(rows, less);
    if StrictTotalOn(less, RowKeys(rows)) {
      GroupSumSorted(rows, less);
    }
    var data := CopyBuckets(field, groups);
    forall i | 0 <= i < |groups| ensures groups[i].amount == SumFor(rows, groups[i].key) {
      AmountOfDistinct(groups, i);
    }
    forall k | k in RowKeys(rows) ensures exists i :: 0 <= i < |data| && data[i].key == k {
      assert k in BucketKeys(groups);
      var i :| 0 <= i < |groups| && groups[i].key == k;
      assert data[i].key == k;
    }
    forall i | 0 <= i < |data| ensures data[i].key in RowKeys(rows) {
      assert groups[i].key in BucketKeys(groups);
    }
    var amounts := Amounts(rows);
    s := Statistics(Total(rows), |rows|, MaxOf(amounts), MinOf(amounts), query, data);
  }
}

=== FILE: calendar.dfy ===
/**
 * Python's datetime values without microseconds: a proleptic Gregorian
 * calendar date in years 1..9999 and a time of day to the second.
 */
module Calendar {

  datatype CivilTime = CivilTime(year: int, month: int, day: int, hour: int, minute: int, second: int)

  predicate IsLeapYear(y: int)
  {
    y % 4 == 0 && (y % 100 != 0 || y % 400 == 0)
  }

  function DaysInMonth(y: int, m: int): (n: int)
    requires 1 <= m <= 12
    ensures 28 <= n <= 31
  {
    if m == 2 then (if IsLeapYear(y) then 29 else 28)
    else if m == 4 || m == 6 || m == 9 || m == 11 then 30
    else 31
  }

  /** What datetime.date(y, m, d) accepts (MINYEAR is 1, MAXYEAR is 9999). */
  predicate ValidDate(y: int, m: int, d: int)
  {
    1 <= y <= 9999 && 1 <= m <= 12 && 1 <= d <= DaysInMonth(y, m)
  }

  predicate ValidCivil(t: CivilTime)
  {
    ValidDate(t.year, t.month, t.day) &&
    0 <= t.hour < 24 && 0 <= t.minute < 60 && 0 <= t.second < 60
  }

  /** A datetime.datetime value (microsecond 0, no time zone). */
  type DateTime = t: CivilTime | ValidCivil(t) witness CivilTime(1, 1, 1, 0, 0, 0)

  /** datetime(y, m, d): midnight of a calendar date. */
  function Midnight(y: int, m: int, d: int): (t: DateTime)
    requires ValidDate(y, m, d)
    ensures t.year == y && t.month == m && t.day == d
    ensures t.hour == 0 && t.minute == 0 && t.second == 0
  {
    CivilTime(y, m, d, 0, 0, 0)
  }

  /** The quarter pandas' .dt.quarter reports: months 1-3 are quarter 1, and so on. */
  function Quarter(t: DateTime): (q: int)
    ensures 1 <= q <= 4
    ensures 3 * (q - 1) < t.month <= 3 * q
  {
    (t.month - 1) / 3 + 1
  }

  /** a < b on datetime values: field by field, year first. */
  predicate Before(a: DateTime, b: DateTime)
  {
    if a.year != b.year then a.year < b.year
    else if a.month != b.month then a.month < b.month
    else if a.day != b.day then a.day < b.day
    else if a.hour != b.hour then a.hour < b.hour
    else if a.minute != b.minute then a.minute < b.minute
    else a.second < b.second
  }

  /** a.date() < b.date(): the calendar dates alone. */
  predicate DateBefore(a: DateTime, b: DateTime)
  {
    if a.year != b.year then a.year < b.year
    else if a.month != b.month then a.month < b.month
    else a.day < b.day
  }

  /** Days in the years before y (date(y, 1, 1).toordinal() - 1). */
  function DaysBeforeYear(y: int): int
    requires y >= 1
  {
    var p := y - 1;
    365 * p + p / 4 - p / 100 + p / 400
  }

  /** Days in the months of year y before month m. */
  function DaysBeforeMonth(y: int, m: int): int
    requires 1 <= m <= 12
  {
    if m == 1 then 0 else DaysBeforeMonth(y, m - 1) + DaysInMonth(y, m - 1)
  }

  /** date.toordinal(): 0001-01-01 is day 1. */
  function Ordinal(t: DateTime): int
  {
    DaysBeforeYear(t.year) + DaysBeforeMonth(t.year, t.month) + t.day
  }

  /** Seconds from 0001-01-01 00:00:00 to t, the scale timedelta arithmetic works on. */
  function Seconds(t: DateTime): int
  {
    (Ordinal(t) - 1) * 86400 + t.hour * 3600 + t.minute * 60 + t.second
  }
}

=== FILE: common.dfy ===
/**
 * Shared vocabulary: optional values, results carrying the Python exception
 * a handler would raise, sums of amounts and an order-preserving filter.
 */
module Common {

  datatype Option<+T> = None | Some(value: T)

  /** The exception kinds the modelled code can raise, by Python class. */
  datatype Error =
    | ClientError(message: string)     // lib.exception.ClientException
    | ValueError(reason: string)       // e.g. strptime on a malformed date
    | KeyError(key: string)            // missing dict key or DataFrame column
    | TypeError(reason: string)        // e.g. iterating over a non-iterable
    | AttributeError(reason: string)   // e.g. .get on something that is not a dict
    | OverflowError(reason: string)    // datetime arithmetic out of range
    | IntegrityError(reason: string)   // NOT NULL or primary-key violation at flush
    | DatabaseError(reason: string)    // any other refusal by the database
    | PendingRollbackError(reason: string) // a session used again after a failed flush

  datatype Result<+T> = Ok(value: T) | Err(error: Error)

  /** str(e) for the exceptions above. */
  function ErrorText(e: Error): string
  {
    match e
    case ClientError(m) => m
    case ValueError(m) => m
    case KeyError(k) => "'" + k + "'"
    case TypeError(m) => m
    case AttributeError(m) => m
    case OverflowError(m) => m
    case IntegrityError(m) => m
    case DatabaseError(m) => m
    case PendingRollbackError(m) => m
  }

  /** Sum of a sequence of amounts, folded from the end. */
  function Sum(xs: seq<int>): int
  {
    if xs == [] then 0 else Sum(xs[..|xs| - 1]) + xs[|xs| - 1]
  }

  lemma {:induction false} SumAppend(xs: seq<int>, ys: seq<int>)
    ensures Sum(xs + ys) == Sum(xs) + Sum(ys)
  {
    if ys != [] {
      assert (xs + ys)[..|xs + ys| - 1] == xs + ys[..|ys| - 1];
      SumAppend(xs, ys[..|ys| - 1]);
    } else {
      assert xs + ys == xs;
    }
  }

  /** The elements of s that satisfy p, in their original order. */
  function Filter<T(!new)>(s: seq<T>, p: T -> bool): (r: seq<T>)
    ensures |r| <= |s|
    ensures forall x :: x in r <==> x in s && p(x)
    ensures forall i :: 0 <= i < |r| ==> p(r[i])
  {
    if s == [] then []
    else
      var rest := Filter(s[..|s| - 1], p);
      assert s == s[..|s| - 1] + [s[|s| - 1]];
      if p(s[|s| - 1]) then rest + [s[|s| - 1]] else rest
  }

  /** Filtering a sequence with one more element at the end. */
  lemma FilterSnoc<T(!new)>(s: seq<T>, p: T -> bool)
    requires s != []
    ensures Filter(s, p) == if p(s[|s| - 1]) then Filter(s[..|s| - 1], p) + [s[|s| - 1]] else Filter(s[..|s| - 1], p)
  {
  }

  /** Filtering keeps every occurrence of an element that satisfies p, and none of one that does not. */
  lemma {:induction false} FilterCounts<T(!new)>(s: seq<T>, p: T -> bool)
    ensures forall x :: multiset(Filter(s, p))[x] == if p(x) then multiset(s)[x] else 0
  {
    if s != [] {
      var init, last := s[..|s| - 1], s[|s| - 1];
      FilterCounts(init, p);
      assert s == init + [last];
      FilterSnoc(s, p);
    }
  }

  lemma {:induction false} FilterKeepsAll<T(!new)>(s: seq<T>, p: T -> bool)
    requires forall i :: 0 <= i < |s| ==> p(s[i])
    ensures Filter(s, p) == s
  {
    if s != [] {
      FilterKeepsAll(s[..|s| - 1], p);
      assert s == s[..|s| - 1] + [s[|s| - 1]];
    }
  }

  /** Filtering with a weaker predicate keeps at least as much. */
  lemma {:induction false} FilterMonotone<T(!new)>(s: seq<T>, p: T -> bool, q: T -> bool)
    requires forall x :: x in s && p(x) ==> q(x)
    ensures |Filter(s, p)| <= |Filter(s, q)|
    ensures multiset(Filter(s, p)) <= multiset(Filter(s, q))
  {
    if s != [] {
      var init := s[..|s| - 1];
      forall x | x in init && p(x) ensures q(x) { assert x in s; }
      FilterMonotone(init, p, q);
      assert s[|s| - 1] in s;
    }
  }
}

=== FILE: datetime_utils.dfy ===
/**
 * The two formatters of the library module datetime_utils: dump_date
 * (strftime "%Y-%m-%d") and dump_datetime (strftime "%Y-%m-%d %H:%M:%S"),
 * both passing None through.
 */
module DateTimeUtils {
  import opened Common
  import opened Decimal
  import opened Calendar

  /** value.strftime("%Y-%m-%d"): four-digit year, two-digit month and day. */
  function FormatDate(t: DateTime): (s: string)
    ensures |s| == 10
  {
    FourDigits(t.year) + "-" + TwoDigits(t.month) + "-" + TwoDigits(t.day)
  }

  /** The fields of a dump_date text, read back, are the year, month and day. */
  lemma FormatDateFields(t: DateTime)
    ensures var s := FormatDate(t);
      s[4] == '-' && s[7] == '-' &&
      AllDigits(s[..4]) && AllDigits(s[5..7]) && AllDigits(s[8..]) &&
      DigitsValue(s[..4]) == t.year && DigitsValue(s[5..7]) == t.month && DigitsValue(s[8..]) == t.day
  {
    var y, m, d := FourDigits(t.year), TwoDigits(t.month), TwoDigits(t.day);
    var s := FormatDate(t);
    assert s[..4] == y && s[5..7] == m && s[8..] == d;
    FourDigitsValue(t.year);
    TwoDigitsValue(t.month);
    TwoDigitsValue(t.day);
  }

  /** value.strftime("%Y-%m-%d %H:%M:%S"). */
  function FormatDateTime(t: DateTime): (s: string)
    ensures |s| == 19
  {
    FormatDate(t) + " " + TwoDigits(t.hour) + ":" + TwoDigits(t.minute) + ":" + TwoDigits(t.second)
  }

  /**
   * A dump_datetime text is the date text, a space, then hour, minute and
   * second separated by colons; the time fields read back as those values.
   */
  lemma FormatDateTimeFields(t: DateTime)
    ensures var s := FormatDateTime(t);
      s[..10] == FormatDate(t) && s[10] == ' ' && s[13] == ':' && s[16] == ':' &&
      AllDigits(s[11..13]) && AllDigits(s[14..16]) && AllDigits(s[17..]) &&
      DigitsValue(s[11..13]) == t.hour && DigitsValue(s[14..16]) == t.minute && DigitsValue(s[17..]) == t.second
  {
    var h, mi, se := TwoDigits(t.hour), TwoDigits(t.minute), TwoDigits(t.second);
    var s := FormatDateTime(t);
    assert s[..10] == FormatDate(t);
    assert s[11..13] == h && s[14..16] == mi && s[17..] == se;
    TwoDigitsValue(t.hour);
    TwoDigitsValue(t.minute);
    TwoDigitsValue(t.second);
  }

  /** dump_date(value): None stays None, a datetime becomes its "%Y-%m-%d" text. */
  function DumpDate(value: Option<DateTime>): (r: Option<string>)
    ensures r.None? <==> value.None?
    ensures r.Some? ==> |r.value| == 10
  {
    match value
    case None => None
    case Some(t) => Some(FormatDate(t))
  }

  /** dump_datetime(value): None stays None, a datetime becomes its "%Y-%m-%d %H:%M:%S" text. */
  function DumpDateTime(value: Option<DateTime>): (r: Option<string>)
    ensures r.None? <==> value.None?
    ensures r.Some? ==> |r.value| == 19
  {
    match value
    case None => None
    case Some(t) => Some(FormatDateTime(t))
  }

  /** dump_date(v) is the first ten characters of dump_datetime(v). */
  lemma DumpDateIsPrefix(v: Option<DateTime>)
    requires v.Some?
    ensures DumpDate(v).value == DumpDateTime(v).value[..10]
  {
    FormatDateTimeFields(v.value);
  }

  /** Equal dump_date texts mean equal calendar dates. */
  lemma FormatDateInjective(a: DateTime, b: DateTime)
    requires FormatDate(a) == FormatDate(b)
    ensures a.year == b.year && a.month == b.month && a.day == b.day
  {
    FormatDateFields(a);
    FormatDateFields(b);
  }

  lemma FormatDateOfSameDay(a: DateTime, b: DateTime)
    requires a.year == b.year && a.month == b.month && a.day == b.day
    ensures FormatDate(a) == FormatDate(b)
  {
  }

  /** Equal dump_datetime texts mean equal datetimes. */
  lemma FormatDateTimeInjective(a: DateTime, b: DateTime)
    requires FormatDateTime(a) == FormatDateTime(b)
    ensures a == b
  {
    FormatDateTimeFields(a);
    FormatDateTimeFields(b);
    FormatDateInjective(a, b);
  }

  /** Comparing dump_date texts as strings orders the calendar dates chronologically. */
  lemma FormatDateOrder(a: DateTime, b: DateTime)
    ensures LexLess(FormatDate(a), FormatDate(b)) <==> DateBefore(a, b)
  {
    FormatDateFields(a);
    FormatDateFields(b);
    var sa, sb := FormatDate(a), FormatDate(b);
    var ya, yb := sa[..4], sb[..4];
    var ma, mb := sa[5..7], sb[5..7];
    var da, db := sa[8..], sb[8..];
    assert sa == ya + ("-" + (ma + ("-" + da)));
    assert sb == yb + ("-" + (mb + ("-" + db)));
    LexAppend(ya, yb, "-" + (ma + ("-" + da)), "-" + (mb + ("-" + db)));
    LexAppend("-", "-", ma + ("-" + da), mb + ("-" + db));
    LexAppend(ma, mb, "-" + da, "-" + db);
    LexAppend("-", "-", da, db);
    LexDigits(ya, yb);
    LexDigits(ma, mb);
    LexDigits(da, db);
  }
}

=== FILE: decimal.dfy ===
/**
 * Decimal text: Python's str() of a non-negative int, the fixed-width
 * fields of strftime's %Y/%m/%d/%H/%M/%S, reading a run of ASCII digits back, and
 * Python's ordering of str values (code point by code point).
 */
module Decimal {

  predicate IsDigit(c: char) { '0' <= c <= '9' }

  predicate AllDigits(s: string) { forall i :: 0 <= i < |s| ==> IsDigit(s[i]) }

  function DigitChar(d: nat): (c: char)
    requires d < 10
    ensures IsDigit(c)
  {
    ('0' as int + d) as char
  }

  function DigitValue(c: char): (d: nat)
    requires IsDigit(c)
    ensures d < 10
  {
    c as int - '0' as int
  }

  lemma DigitRoundTrip(d: nat)
    requires d < 10
    ensures DigitValue(DigitChar(d)) == d
  {
  }

  function Pow10(k: nat): (p: nat)
    ensures p >= 1
  {
    if k == 0 then 1 else 10 * Pow10(k - 1)
  }

  /** str(n) for an int n >= 0: its decimal digits, without leading zeros. */
  function NatToString(n: nat): (s: string)
    ensures |s| >= 1 && AllDigits(s)
  {
    if n < 10 then [DigitChar(n)] else NatToString(n / 10) + [DigitChar(n % 10)]
  }

  /** int(s) for a string of ASCII digits (0 for the empty string). */
  function DigitsValue(s: string): nat
    requires AllDigits(s)
  {
    if s == [] then 0 else DigitsValue(s[..|s| - 1]) * 10 + DigitValue(s[|s| - 1])
  }

  /** Reading back what str() wrote gives the number again. */
  lemma {:induction false} NatToStringRoundTrip(n: nat)
    ensures DigitsValue(NatToString(n)) == n
  {
    var s := NatToString(n);
    if n < 10 {
      DigitRoundTrip(n);
    } else {
      NatToStringRoundTrip(n / 10);
      assert s[..|s| - 1] == NatToString(n / 10);
      DigitRoundTrip(n % 10);
    }
  }

  /** str(n) has at most k digits exactly when n < 10^k. */
  lemma {:induction false} NatToStringLength(n: nat, k: nat)
    requires k >= 1
    ensures |NatToString(n)| <= k <==> n < Pow10(k)
  {
    if n >= 10 {
      if k == 1 {
        NatToStringAtLeastOne(n / 10);
      } else {
        NatToStringLength(n / 10, k - 1);
      }
    }
  }

  lemma NatToStringAtLeastOne(n: nat)
    ensures |NatToString(n)| >= 1
  {
  }

  /** The digits of a concatenation: int(a + b) == int(a) * 10^|b| + int(b). */
  lemma {:induction false} DigitsValueAppend(a: string, b: string)
    requires AllDigits(a) && AllDigits(b)
    ensures AllDigits(a + b)
    ensures DigitsValue(a + b) == DigitsValue(a) * Pow10(|b|) + DigitsValue(b)
  {
    if b != [] {
      var b' := b[..|b| - 1];
      assert (a + b)[..|a + b| - 1] == a + b';
      DigitsValueAppend(a, b');
      MulTen(DigitsValue(a), Pow10(|b'|));
    } else {
      assert a + b == a;
    }
  }

  /** The value of a digit string is below 10^length. */
  lemma {:induction false} DigitsValueBound(s: string)
    requires AllDigits(s)
    ensures DigitsValue(s) < Pow10(|s|)
  {
    if s != [] {
      DigitsValueBound(s[..|s| - 1]);
    }
  }

  /** "%02d" % n for 0 <= n < 100: the two-digit fields of strftime. */
  function TwoDigits(n: nat): (s: string)
    requires n < 100
    ensures |s| == 2
  {
    [DigitChar(n / 10), DigitChar(n % 10)]
  }

  /** "%04d" % n for 0 <= n < 10000: a four-digit %Y. */
  function FourDigits(n: nat): (s: string)
    requires n < 10000
    ensures |s| == 4
  {
    [DigitChar(n / 1000), DigitChar(n / 100 % 10), DigitChar(n / 10 % 10), DigitChar(n % 10)]
  }

  lemma TwoDigitsValue(n: nat)
    requires n < 100
    ensures AllDigits(TwoDigits(n)) && DigitsValue(TwoDigits(n)) == n
  {
    var s := TwoDigits(n);
    DigitRoundTrip(n / 10);
    DigitRoundTrip(n % 10);
    assert DigitsValue(s[..1]) == n / 10 by { assert s[..1][..0] == []; }
  }

  lemma FourDigitsValue(n: nat)
    requires n < 10000
    ensures AllDigits(FourDigits(n)) && DigitsValue(FourDigits(n)) == n
  {
    var s := FourDigits(n);
    DigitRoundTrip(n / 1000);
    DigitRoundTrip(n / 100 % 10);
    DigitRoundTrip(n / 10 % 10);
    DigitRoundTrip(n % 10);
    assert DigitsValue(s[..1]) == n / 1000 by { assert s[..1][..0] == []; }
    assert DigitsValue(s[..2]) == n / 100 by { assert s[..2][..1] == s[..1]; }
    assert DigitsValue(s[..3]) == n / 10 by { assert s[..3][..2] == s[..2]; }
  }

  /** Python's `a < b` on str: the first differing code point decides, a proper prefix is smaller. */
  predicate LexLess(a: string, b: string)
  {
    if a == [] then b != []
    else if b == [] then false
    else if a[0] != b[0] then a[0] < b[0]
    else LexLess(a[1..], b[1..])
  }

  lemma {:induction false} LexIrreflexive(a: string)
    ensures !LexLess(a, a)
  {
    if a != [] { LexIrreflexive(a[1..]); }
  }

  lemma {:induction false} LexTransitive(a: string, b: string, c: string)
    requires LexLess(a, b) && LexLess(b, c)
    ensures LexLess(a, c)
  {
    if a != [] && b != [] && c != [] && a[0] == b[0] && b[0] == c[0] {
      LexTransitive(a[1..], b[1..], c[1..]);
    }
  }

  lemma {:induction false} LexConnected(a: string, b: string)
    requires a != b
    ensures LexLess(a, b) || LexLess(b, a)
  {
    if a != [] && b != [] && a[0] == b[0] {
      assert a == [a[0]] + a[1..] && b == [b[0]] + b[1..];
      LexConnected(a[1..], b[1..]);
    }
  }

  /** With equal-length heads, the heads decide unless they are equal. */
  lemma {:induction false} LexAppend(p: string, q: string, x: string, y: string)
    requires |p| == |q|
    ensures LexLess(p + x, q + y) == if p != q then LexLess(p, q) else LexLess(x, y)
  {
    if p != [] {
      assert (p + x)[1..] == p[1..] + x && (q + y)[1..] == q[1..] + y;
      if p[0] == q[0] {
        LexAppend(p[1..], q[1..], x, y);
        assert p[1..] == q[1..] ==> p == q;
      }
    } else {
      assert p + x == x && q + y == y;
    }
  }

  /** On digit strings of one length, lexical order is numeric order. */
  lemma {:induction false} LexDigits(a: string, b: string)
    requires |a| == |b| && AllDigits(a) && AllDigits(b)
    ensures LexLess(a, b) <==> DigitsValue(a) < DigitsValue(b)
  {
    if a != [] {
      var n := |a| - 1;
      var a', b' := a[1..], b[1..];
      assert a == [a[0]] + a' && b == [b[0]] + b';
      DigitsValueAppend([a[0]], a');
      DigitsValueAppend([b[0]], b');
      assert DigitsValue([a[0]]) == DigitValue(a[0]) by { assert [a[0]][..0] == []; }
      assert DigitsValue([b[0]]) == DigitValue(b[0]) by { assert [b[0]][..0] == []; }
      var da, db, p := DigitValue(a[0]), DigitValue(b[0]), Pow10(n);
      DigitsValueBound(a');
      DigitsValueBound(b');
      if a[0] == b[0] {
        LexDigits(a', b');
      } else if da < db {
        MulStep(da, db, p);
      } else {
        MulStep(db, da, p);
      }
    }
  }

  lemma MulTen(x: nat, p: nat)
    ensures x * (10 * p) == 10 * (x * p)
  {
  }

  lemma MulSucc(x: nat, p: nat)
    ensures (x + 1) * p == x * p + p
  {
  }

  lemma {:induction false} MulStep(x: nat, y: nat, p: nat)
    requires x < y
    ensures x * p + p <= y * p
  {
    MulSucc(y - 1, p);
    if x < y - 1 {
      MulStep(x, y - 1, p);
    }
  }

  /** Index of the first occurrence of c in s, or |s| when there is none. */
  function Find(s: string, c: char): (i: nat)
    ensures i <= |s|
    ensures i < |s| ==> s[i] == c
    ensures forall j :: 0 <= j < i ==> s[j] != c
  {
    if s == [] then 0
    else if s[0] == c then 0
    else 1 + Find(s[1..], c)
  }

  /** A separator is found right after a run that does not contain it. */
  lemma FindSeparator(a: string, c: char, b: string)
    requires c !in a
    ensures Find(a + [c] + b, c) == |a|
  {
    assert (a + [c] + b)[|a|] == c;
  }

  /** A separator after a digit run is found right after the run. */
  lemma FindAfterDigits(a: string, c: char, b: string)
    requires AllDigits(a) && !IsDigit(c)
    ensures Find(a + [c] + b, c) == |a|
  {
    FindSeparator(a, c, b);
  }

  lemma DigitCharOfValue(c: char)
    requires IsDigit(c)
    ensures DigitChar(DigitValue(c)) == c
  {
  }

  /** A two-digit text is the zero-padded spelling of its value. */
  lemma TwoDigitsOfValue(s: string)
    requires |s| == 2 && AllDigits(s)
    ensures DigitsValue(s) < 100 && s == TwoDigits(DigitsValue(s))
  {
    var a, b := DigitValue(s[0]), DigitValue(s[1]);
    assert DigitsValue(s[..1]) == a by { assert s[..1][..0] == []; }
    var n := DigitsValue(s);
    assert n == a * 10 + b;
    DivModDigit(n, a, b);
    DigitCharOfValue(s[0]);
    DigitCharOfValue(s[1]);
  }

  lemma DivModDigit(n: nat, q: nat, d: nat)
    requires d < 10 && n == q * 10 + d
    ensures n / 10 == q && n % 10 == d
  {
  }

  /** A four-digit text is the zero-padded spelling of its value. */
  lemma FourDigitsOfValue(s: string)
    requires |s| == 4 && AllDigits(s)
    ensures DigitsValue(s) < 10000 && s == FourDigits(DigitsValue(s))
  {
    var a, b, c, d := DigitValue(s[0]), DigitValue(s[1]), DigitValue(s[2]), DigitValue(s[3]);
    var n1 := DigitsValue(s[..1]);
    var n2 := DigitsValue(s[..2]);
    var n3 := DigitsValue(s[..3]);
    var n := DigitsValue(s);
    assert DigitsValue(s[..1]) == a by { assert s[..1][..0] == []; }
    assert n2 == n1 * 10 + b by { assert s[..2][..1] == s[..1]; }
    assert n3 == n2 * 10 + c by { assert s[..3][..2] == s[..2]; }
    assert n == n3 * 10 + d by { assert s[..4] == s; }
    DivModDigit(n, n3, d);
    DivModDigit(n3, n2, c);
    DivModDigit(n2, n1, b);
    assert n / 10 / 10 == n / 100 && n / 100 / 10 == n / 1000;
    DigitCharOfValue(s[0]);
    DigitCharOfValue(s[1]);
    DigitCharOfValue(s[2]);
    DigitCharOfValue(s[3]);
  }

  /** str(n) below 100: one digit, or the same two digits "%02d" writes. */
  lemma SmallNatToString(n: nat)
    requires n < 100
    ensures NatToString(n) == if n < 10 then [DigitChar(n)] else TwoDigits(n)
  {
  }
}

=== FILE: models.dfy ===
/**
 * The ORM models: the transactions table, its three lookup tables keyed by
 * name, the `serialize` view of a stored transaction, and the dynamically
 * typed Python values a freshly constructed TransactionModel may hold.
 */
module Models {
  import opened Common
  import opened Calendar
  import opened DateTimeUtils
  import opened Strptime

  /** A Python value as it arrives in a JSON body or sits in a model attribute. */
  datatype Value =
    | Null
    | Bool(b: bool)
    | Num(n: int)
    | Str(s: string)
    | Stamp(t: DateTime)
    | List(items: seq<Value>)
    | Object(fields: map<string, Value>)

  /** type(v).__name__ for a parsed JSON value. */
  function PyTypeName(v: Value): string
  {
    match v
    case Null => "NoneType"
    case Bool(_) => "bool"
    case Num(_) => "int"
    case Str(_) => "str"
    case Stamp(_) => "datetime"
    case List(_) => "list"
    case Object(_) => "dict"
  }

  /** Python truthiness: None, False, 0, "", [] and {} are false. */
  predicate Truthy(v: Value)
  {
    match v
    case Null => false
    case Bool(b) => b
    case Num(n) => n != 0
    case Str(s) => s != ""
    case Stamp(_) => true
    case List(items) => items != []
    case Object(fields) => fields != map[]
  }

  /** A str-or-None result as a Python value. */
  function FromOption(o: Option<string>): (v: Value)
    ensures v.Null? <==> o.None?
    ensures o.Some? ==> v == Str(o.value)
  {
    match o
    case None => Null
    case Some(s) => Str(s)
  }

  /**
   * A row of the transactions table as read back from the database. Every
   * column but notes is NOT NULL, so only notes is optional. The column the
   * model names `type` is the one the handlers call `type_name`.
   */
  datatype TransactionRecord = TransactionRecord(
    transactionId: int,
    transactionDate: DateTime,
    description: string,
    notes: Option<string>,
    categoryLevel1: string,
    categoryLevel2: string,
    typeName: string,
    amount: int,           // db.Float in the source; whole cents here
    source: string,
    createdAt: DateTime,
    createdBy: string,
    modifiedAt: DateTime,
    modifiedBy: string)

  /** The columns of the transactions table, which are also the keys serialize writes. */
  datatype Column =
    | TransactionIdColumn | TransactionDateColumn | DescriptionColumn | NotesColumn
    | CategoryLevel1Column | CategoryLevel2Column | TypeColumn | AmountColumn | SourceColumn
    | CreatedAtColumn | CreatedByColumn | ModifiedAtColumn | ModifiedByColumn

  /** The dict key serialize uses for each column. */
  function ColumnName(c: Column): string
  {
    match c
    case TransactionIdColumn => "transaction_id"
    case TransactionDateColumn => "transaction_date"
    case DescriptionColumn => "description"
    case NotesColumn => "notes"
    case CategoryLevel1Column => "category_level1"
    case CategoryLevel2Column => "category_level2"
    case TypeColumn => "type"
    case AmountColumn => "amount"
    case SourceColumn => "source"
    case CreatedAtColumn => "created_at"
    case CreatedByColumn => "created_by"
    case ModifiedAtColumn => "modified_at"
    case ModifiedByColumn => "modified_by"
  }

  const AllColumns: set<Column> := {
    TransactionIdColumn, TransactionDateColumn, DescriptionColumn, NotesColumn,
    CategoryLevel1Column, CategoryLevel2Column, TypeColumn, AmountColumn, SourceColumn,
    CreatedAtColumn, CreatedByColumn, ModifiedAtColumn, ModifiedByColumn
  }

  /**
   * TransactionModel.serialize: the row as a dict with one entry per column.
   * The three datetime columns are NOT NULL, so dump_date and dump_datetime
   * always return a string here.
   */
  function Serialize(r: TransactionRecord): map<Column, Value>
  {
    map c | c in AllColumns :: ColumnValue(r, c)
  }

  /** The value serialize writes for one column. */
  function ColumnValue(r: TransactionRecord, c: Column): Value
  {
    match c
    case TransactionIdColumn => Num(r.transactionId)
    case TransactionDateColumn => Str(DumpDate(Some(r.transactionDate)).value)
    case DescriptionColumn => Str(r.description)
    case NotesColumn => FromOption(r.notes)
    case CategoryLevel1Column => Str(r.categoryLevel1)
    case CategoryLevel2Column => Str(r.categoryLevel2)
    case TypeColumn => Str(r.typeName)
    case AmountColumn => Num(r.amount)
    case SourceColumn => Str(r.source)
    case CreatedAtColumn => Str(DumpDateTime(Some(r.createdAt)).value)
    case CreatedByColumn => Str(r.createdBy)
    case ModifiedAtColumn => Str(DumpDateTime(Some(r.modifiedAt)).value)
    case ModifiedByColumn => Str(r.modifiedBy)
  }

  /**
   * serialize writes exactly the thirteen columns of the table, under thirteen
   * distinct keys which are the column names.
   */
  lemma SerializeKeys(r: TransactionRecord)
    ensures Serialize(r).Keys == AllColumns
    ensures (set c | c in Serialize(r).Keys :: ColumnName(c)) ==
      {"transaction_id", "transaction_date", "description", "notes", "category_level1",
       "category_level2", "type", "amount", "source", "created_at", "created_by",
       "modified_at", "modified_by"}
    ensures forall a, b :: a in Serialize(r).Keys && b in Serialize(r).Keys && ColumnName(a) == ColumnName(b) ==> a == b
  {
    assert Serialize(r).Keys == AllColumns;
    ColumnNames();
    ColumnNameInjective();
  }

  /** The names of all the columns, listed. */
  lemma ColumnNames()
    ensures (set c | c in AllColumns :: ColumnName(c)) ==
      {"transaction_id", "transaction_date", "description", "notes", "category_level1",
       "category_level2", "type", "amount", "source", "created_at", "created_by",
       "modified_at", "modified_by"}
  {
    assert ColumnName(TransactionIdColumn) == "transaction_id";
    assert ColumnName(TransactionDateColumn) == "transaction_date";
    assert ColumnName(DescriptionColumn) == "description";
    assert ColumnName(NotesColumn) == "notes";
    assert ColumnName(CategoryLevel1Column) == "category_level1";
    assert ColumnName(CategoryLevel2Column) == "category_level2";
    assert ColumnName(TypeColumn) == "type";
    assert ColumnName(AmountColumn) == "amount";
    assert ColumnName(SourceColumn) == "source";
    assert ColumnName(CreatedAtColumn) == "created_at";
    assert ColumnName(CreatedByColumn) == "created_by";
    assert ColumnName(ModifiedAtColumn) == "modified_at";
    assert ColumnName(ModifiedByColumn) == "modified_by";
  }

  /** Different columns have different dict keys. */
  lemma ColumnNameInjective()
    ensures forall a, b :: ColumnName(a) == ColumnName(b) ==> a == b
  {
    forall a, b | ColumnName(a) == ColumnName(b) ensures a == b {
    }
  }

  /**
   * The serialized transaction_date reads back (as pandas and strptime read
   * it) to midnight of the stored date: the time of day is dropped.
   */
  lemma SerializedDateReadsBack(r: TransactionRecord)
    ensures Serialize(r)[TransactionDateColumn] == Str(FormatDate(r.transactionDate))
    ensures ParseIsoDate(Serialize(r)[TransactionDateColumn].s)
         == Ok(Midnight(r.transactionDate.year, r.transactionDate.month, r.transactionDate.day))
  {
    ParseIsoDateRoundTrip(r.transactionDate);
  }

  /** The row with the time of day of transaction_date dropped: all that serialize keeps. */
  function DateOnly(r: TransactionRecord): TransactionRecord
  {
    var t := r.transactionDate;
    r.(transactionDate := Midnight(t.year, t.month, t.day))
  }

  /** serialize loses exactly the time of day of transaction_date and nothing else. */
  lemma SerializeKeepsAllButTime(a: TransactionRecord, b: TransactionRecord)
    ensures Serialize(a) == Serialize(b) <==> DateOnly(a) == DateOnly(b)
  {
    if Serialize(a) == Serialize(b) {
      EqualSerializationSameRow(a, b);
    }
    if DateOnly(a) == DateOnly(b) {
      SameRowEqualSerialization(a, b);
    }
  }

  lemma EqualSerializationSameRow(a: TransactionRecord, b: TransactionRecord)
    requires Serialize(a) == Serialize(b)
    ensures DateOnly(a) == DateOnly(b)
  {
    SameDate(a, b);
    SameCreatedAt(a, b);
    SameModifiedAt(a, b);
    SameTextColumns(a, b);
    SameOtherColumns(a, b);
  }

  lemma SameDate(a: TransactionRecord, b: TransactionRecord)
    requires Serialize(a) == Serialize(b)
    ensures a.transactionDate.year == b.transactionDate.year
    ensures a.transactionDate.month == b.transactionDate.month
    ensures a.transactionDate.day == b.transactionDate.day
  {
    assert Serialize(a)[TransactionDateColumn] == Serialize(b)[TransactionDateColumn];
    FormatDateInjective(a.transactionDate, b.transactionDate);
  }

  lemma SameCreatedAt(a: TransactionRecord, b: TransactionRecord)
    requires Serialize(a) == Serialize(b)
    ensures a.createdAt == b.createdAt
  {
    assert Serialize(a)[CreatedAtColumn] == Serialize(b)[CreatedAtColumn];
    FormatDateTimeInjective(a.createdAt, b.createdAt);
  }

  lemma SameModifiedAt(a: TransactionRecord, b: TransactionRecord)
    requires Serialize(a) == Serialize(b)
    ensures a.modifiedAt == b.modifiedAt
  {
    assert Serialize(a)[ModifiedAtColumn] == Serialize(b)[ModifiedAtColumn];
    FormatDateTimeInjective(a.modifiedAt, b.modifiedAt);
  }

  lemma SameTextColumns(a: TransactionRecord, b: TransactionRecord)
    requires Serialize(a) == Serialize(b)
    ensures a.description == b.description && a.notes == b.notes
    ensures a.categoryLevel1 == b.categoryLevel1 && a.categoryLevel2 == b.categoryLevel2
    ensures a.typeName == b.typeName
  {
    var da, db := Serialize(a), Serialize(b);
    assert da[DescriptionColumn] == db[DescriptionColumn];
    assert da[NotesColumn] == db[NotesColumn];
    assert da[CategoryLevel1Column] == db[CategoryLevel1Column];
    assert da[CategoryLevel2Column] == db[CategoryLevel2Column];
    assert da[TypeColumn] == db[TypeColumn];
  }

  lemma SameOtherColumns(a: TransactionRecord, b: TransactionRecord)
    requires Serialize(a) == Serialize(b)
    ensures a.transactionId == b.transactionId && a.amount == b.amount && a.source == b.source
    ensures a.createdBy == b.createdBy && a.modifiedBy == b.modifiedBy
  {
    var da, db := Serialize(a), Serialize(b);
    assert da[TransactionIdColumn] == db[TransactionIdColumn];
    assert da[AmountColumn] == db[AmountColumn];
    assert da[SourceColumn] == db[SourceColumn];
    assert da[CreatedByColumn] == db[CreatedByColumn];
    assert da[ModifiedByColumn] == db[ModifiedByColumn];
  }

  lemma SameRowEqualSerialization(a: TransactionRecord, b: TransactionRecord)
    requires DateOnly(a) == DateOnly(b)
    ensures Serialize(a) == Serialize(b)
  {
    var ta, tb := a.transactionDate, b.transactionDate;
    assert ta.year == tb.year && ta.month == tb.month && ta.day == tb.day;
    FormatDateOfSameDay(ta, tb);
    forall c | c in AllColumns ensures ColumnValue(a, c) == ColumnValue(b, c) {
    }
  }

  /**
   * A TransactionModel object before it is flushed: the constructor stores
   * whatever Python values it is given, so every attribute is a Value.
   */
  datatype TransactionModel = TransactionModel(
    transactionDate: Value,
    description: Value,
    notes: Value,
    categoryLevel1: Value,
    categoryLevel2: Value,
    typeName: Value,
    amount: Value,
    source: Value,
    createdAt: Value,
    createdBy: Value,
    modifiedAt: Value,
    modifiedBy: Value)

  /**
   * The NOT NULL constraints of the transactions table: every column but
   * notes (transaction_id is filled in by autoincrement, so it is not an
   * attribute of a new object).
   */
  predicate SatisfiesNotNull(m: TransactionModel)
  {
    m.transactionDate != Null && m.description != Null &&
    m.categoryLevel1 != Null && m.categoryLevel2 != Null &&
    m.typeName != Null && m.amount != Null && m.source != Null &&
    m.createdAt != Null && m.createdBy != Null &&
    m.modifiedAt != Null && m.modifiedBy != Null
  }

  /** A row of the category, source or type table: its primary key is the name. */
  datatype LookupRow = LookupRow(name: string, description: Option<string>)

  predicate UniqueNames(table: seq<LookupRow>)
  {
    forall i, j :: 0 <= i < j < |table| ==> table[i].name != table[j].name
  }

  predicate HasName(table: seq<LookupRow>, name: string)
  {
    exists i :: 0 <= i < |table| && table[i].name == name
  }

  /** Inserting a lookup row: a second row with the same name violates the primary key. */
  function InsertLookup(table: seq<LookupRow>, row: LookupRow): (r: Result<seq<LookupRow>>)
    ensures r.Ok? <==> !HasName(table, row.name)
    ensures r.Err? ==> r.error.IntegrityError?
    ensures r.Ok? ==> r.value == table + [row]
    ensures r.Ok? && UniqueNames(table) ==> UniqueNames(r.value)
  {
    if HasName(table, row.name) then Err(IntegrityError("duplicate key value violates unique constraint"))
    else Ok(table + [row])
  }

  /** Looking a lookup row up by name. */
  function LookupByName(table: seq<LookupRow>, name: string): (r: Option<LookupRow>)
    ensures r.Some? <==> HasName(table, name)
    ensures r.Some? ==> r.value in table && r.value.name == name
  {
    if table == [] then None
    else if table[0].name == name then Some(table[0])
    else
      var r := LookupByName(table[1..], name);
      assert HasName(table, name) ==> table[0].name == name || HasName(table[1..], name) by {
        if HasName(table, name) {
          var i :| 0 <= i < |table| && table[i].name == name;
          if i > 0 { assert table[1..][i - 1].name == name; }
        }
      }
      assert HasName(table[1..], name) ==> HasName(table, name) by {
        if HasName(table[1..], name) {
          var i :| 0 <= i < |table[1..]| && table[1..][i].name == name;
          assert table[i + 1].name == name;
        }
      }
      r
  }

  /** With unique names, the row found by name is the one inserted under it. */
  lemma LookupAfterInsert(table: seq<LookupRow>, row: LookupRow)
    requires UniqueNames(table) && !HasName(table, row.name)
    ensures InsertLookup(table, row).Ok?
    ensures LookupByName(InsertLookup(table, row).value, row.name) == Some(row)
  {
    var t := table + [row];
    var r := LookupByName(t, row.name);
    assert HasName(t, row.name) by { assert t[|table|] == row; }
    assert r.value in t;
  }
}

=== FILE: query.dfy ===
/**
 * The narrowing every statistics endpoint applies to the transactions
 * table before grouping: the optional startDate/endDate bounds, parsed with
 * "%Y-%m-%d" and compared strictly, and the `type == "Sale"` restriction.
 * The table is an in-memory sequence of rows in fetch order.
 */
module Query {
  import opened Common
  import opened Decimal
  import opened Calendar
  import opened Strptime
  import opened Models
  import opened Aggregation

  /** request.args.get(name, ""). */
  function Arg(args: map<string, string>, name: string): (v: string)
    ensures name in args ==> v == args[name]
    ensures name !in args ==> v == ""
  {
    if name in args then args[name] else ""
  }

  /** A startDate/endDate argument: "" imposes no bound, anything else must parse as "%Y-%m-%d". */
  function ParseBound(text: string): (r: Result<Option<DateTime>>)
    ensures text == "" ==> r == Ok(None)
    ensures text != "" && ParseIsoDate(text).Ok? ==> r == Ok(Some(ParseIsoDate(text).value))
    ensures text != "" && ParseIsoDate(text).Err? ==> r == Err(ParseIsoDate(text).error)
  {
    if text == "" then Ok(None)
    else
      match ParseIsoDate(text)
      case Ok(t) => Ok(Some(t))
      case Err(e) => Err(e)
  }

  /** transaction_date > start (when given) and transaction_date < end (when given). */
  predicate InWindow(t: DateTime, start: Option<DateTime>, end: Option<DateTime>)
  {
    (start.None? || Before(start.value, t)) && (end.None? || Before(t, end.value))
  }

  /** The rows of the table strictly inside the window, in table order. */
  function Window(records: seq<TransactionRecord>, start: Option<DateTime>, end: Option<DateTime>)
    : (w: seq<TransactionRecord>)
    ensures forall r :: r in w <==> r in records && InWindow(r.transactionDate, start, end)
    ensures forall r :: multiset(w)[r] == if InWindow(r.transactionDate, start, end) then multiset(records)[r] else 0
    ensures |w| <= |records|
  {
    FilterCounts(records, (r: TransactionRecord) => InWindow(r.transactionDate, start, end));
    Filter(records, (r: TransactionRecord) => InWindow(r.transactionDate, start, end))
  }

  /** Without bounds nothing is dropped. */
  lemma WindowUnbounded(records: seq<TransactionRecord>)
    ensures Window(records, None, None) == records
  {
    FilterKeepsAll(records, (r: TransactionRecord) => InWindow(r.transactionDate, None, None));
  }

  /** A bound on a date is never an inclusive one: a row dated exactly at a bound is dropped. */
  lemma WindowExcludesBounds(records: seq<TransactionRecord>, start: DateTime, end: DateTime)
    ensures forall r :: r in Window(records, Some(start), Some(end)) ==>
      r.transactionDate != start && r.transactionDate != end
  {
    forall r | r in Window(records, Some(start), Some(end))
      ensures r.transactionDate != start && r.transactionDate != end
    {
      BeforeIrreflexive(start);
      BeforeIrreflexive(end);
    }
  }

  lemma BeforeIrreflexive(t: DateTime)
    ensures !Before(t, t)
  {
  }

  /** Parsing both bounds (startDate first, then endDate) and selecting the rows between them. */
  function FetchWindow(args: map<string, string>, records: seq<TransactionRecord>)
    : (r: Result<seq<TransactionRecord>>)
    ensures ParseBound(Arg(args, "startDate")).Err? ==> r == Err(ParseBound(Arg(args, "startDate")).error)
    ensures ParseBound(Arg(args, "startDate")).Ok? && ParseBound(Arg(args, "endDate")).Err? ==>
      r == Err(ParseBound(Arg(args, "endDate")).error)
    ensures r.Err? ==> r.error.ValueError?
    ensures r.Ok? ==> r.value == Window(records, ParseBound(Arg(args, "startDate")).value,
                                        ParseBound(Arg(args, "endDate")).value)
  {
    match ParseBound(Arg(args, "startDate"))
    case Err(e) => Err(e)
    case Ok(start) =>
      match ParseBound(Arg(args, "endDate"))
      case Err(e) => Err(e)
      case Ok(end) => Ok(Window(records, start, end))
  }

  predicate IsSale(r: TransactionRecord)
  {
    r.typeName == "Sale"
  }

  /** The rows whose type is "Sale", in order. */
  function SaleOnly(records: seq<TransactionRecord>): (s: seq<TransactionRecord>)
    ensures forall r :: r in s <==> r in records && r.typeName == "Sale"
    ensures forall r :: multiset(s)[r] == if r.typeName == "Sale" then multiset(records)[r] else 0
    ensures |s| <= |records|
  {
    FilterCounts(records, IsSale);
    Filter(records, IsSale)
  }

  /** The (key, amount) frame: one row per record, keyed by the given column. */
  function Project(records: seq<TransactionRecord>, column: TransactionRecord -> string): (rows: seq<Keyed>)
    ensures |rows| == |records|
    ensures forall i :: 0 <= i < |records| ==> rows[i] == Keyed(column(records[i]), records[i].amount)
  {
    seq(|records|, i requires 0 <= i < |records| => Keyed(column(records[i]), records[i].amount))
  }

  /** Text order is a strict total order on any set of strings. */
  lemma LexTotal(S: set<string>)
    ensures StrictTotalOn(LexLess, S)
  {
    forall a | a in S ensures !LexLess(a, a) { LexIrreflexive(a); }
    forall a, b, c | a in S && b in S && c in S && LexLess(a, b) && LexLess(b, c)
      ensures LexLess(a, c)
    {
      LexTransitive(a, b, c);
    }
    forall a, b | a in S && b in S && a != b ensures LexLess(a, b) || LexLess(b, a) {
      LexConnected(a, b);
    }
  }
}

=== FILE: session.dfy ===
/**
 * The database session a request handler works on: objects added since the
 * last commit, the rows committed to the transactions table, and the state a
 * failed flush leaves behind. The request wrapper (DBSession.class_method)
 * commits after a handler returns and rolls back when it raises.
 */
module DbSession {
  import opened Common
  import opened Models

  const PendingRollbackText: string :=
    "This Session's transaction has been rolled back due to a previous exception during flush. " +
    "To begin a new transaction with this Session, first issue Session.rollback()."

  const NotNullText: string := "null value violates not-null constraint"

  /**
   * What flushing a batch of new objects does: nothing to write always
   * succeeds; a NULL in a NOT NULL column is an integrity error; otherwise
   * the database may still refuse the write (type coercion, lengths,
   * connectivity), which `refusal` stands for.
   */
  function CommitOutcome(batch: seq<TransactionModel>, refusal: Option<string>): (e: Option<Error>)
    ensures batch == [] ==> e.None?
    ensures (exists m :: m in batch && !SatisfiesNotNull(m)) ==> e == Some(IntegrityError(NotNullText))
    ensures e.None? ==> forall m :: m in batch ==> SatisfiesNotNull(m)
    ensures e.Some? ==> e.value.IntegrityError? || e.value.DatabaseError?
  {
    if batch == [] then None
    else if exists m :: m in batch && !SatisfiesNotNull(m) then Some(IntegrityError(NotNullText))
    else if refusal.Some? then Some(DatabaseError(refusal.value))
    else None
  }

  class Session {
    /** Objects added since the last commit or rollback. */
    var pending: seq<TransactionModel>
    /** The rows of the transactions table, in insertion order. */
    var stored: seq<TransactionModel>
    /** Set by a failed flush: every commit is refused until a rollback. */
    var inactive: bool

    /** Every committed row satisfies the table's NOT NULL constraints. */
    predicate Valid()
      reads this
    {
      forall m :: m in stored ==> SatisfiesNotNull(m)
    }

    /** The state every request starts from and the wrapper leaves behind. */
    predicate Clean()
      reads this
    {
      pending == [] && !inactive
    }

    constructor(table: seq<TransactionModel>)
      requires forall m :: m in table ==> SatisfiesNotNull(m)
      ensures stored == table && Clean() && Valid()
    {
      stored := table;
      pending := [];
      inactive := false;
    }

    /** session.add: queue a new object; nothing is written yet. */
    method Add(m: TransactionModel)
      modifies this
      ensures pending == old(pending) + [m]
      ensures stored == old(stored) && inactive == old(inactive)
    {
      pending := pending + [m];
    }

    /**
     * session.commit: flush the queued objects in one transaction. A failed
     * flush leaves the session inactive, with its queue still to be thrown
     * away by the rollback that must follow (SQLAlchemy's rollback expunges
     * the pending objects; here that is Rollback emptying `pending`).
     */
    method Commit(refusal: Option<string>) returns (e: Option<Error>)
      requires Valid()
      modifies this
      ensures Valid()
      ensures old(inactive) ==> e == Some(PendingRollbackError(PendingRollbackText)) && unchanged(this)
      ensures !old(inactive) ==> e == CommitOutcome(old(pending), refusal)
      ensures !old(inactive) && e.None? ==> stored == old(stored) + old(pending) && Clean()
      ensures !old(inactive) && e.Some? ==> stored == old(stored) && pending == old(pending) && inactive
    {
      if inactive {
        return Some(PendingRollbackError(PendingRollbackText));
      }
      e := CommitOutcome(pending, refusal);
      if e.None? {
        stored := stored + pending;
        pending := [];
      } else {
        inactive := true;
      }
    }

    /** session.rollback: drop the queue and make the session usable again. */
    method Rollback()
      modifies this
      ensures stored == old(stored) && Clean()
    {
      pending := [];
      inactive := false;
    }

    /**
     * The end of DBSession.class_method: commit when the handler returned,
     * roll back when it raised (or when that commit failed) and re-raise.
     * `raised` stands for an Exception. ClientException derives from
     * BaseException and escapes `except Exception` with neither commit nor
     * rollback; the statistics handlers raise it before they touch the
     * session, so that difference is not observable there.
     */
    method EndRequest(raised: Option<Error>, refusal: Option<string>) returns (e: Option<Error>)
      requires Valid()
      modifies this
      ensures Valid() && Clean()
      ensures raised.Some? ==> e == raised && stored == old(stored)
      ensures raised.None? && old(inactive) ==> e == Some(PendingRollbackError(PendingRollbackText)) && stored == old(stored)
      ensures raised.None? && !old(inactive) ==> e == CommitOutcome(old(pending), refusal)
      ensures raised.None? && !old(inactive) && e.None? ==> stored == old(stored) + old(pending)
      ensures raised.None? && !old(inactive) && e.Some? ==> stored == old(stored)
    {
      if raised.Some? {
        Rollback();
        return raised;
      }
      e := Commit(refusal);
      if e.Some? {
        Rollback();
      }
    }
  }
}

=== FILE: statistics_by_category.dfy ===
/**
 * GET statistics by category: the Sale rows inside the optional date
 * window, optionally restricted to one category_level2, grouped by
 * category_level2 in text order; an empty selection answers an empty list.
 */
module StatisticsByCategory {
  import opened Common
  import opened Decimal
  import opened Models
  import opened Aggregation
  import opened Query

  /** make_response([]) when nothing is selected, otherwise the statistics object. */
  datatype CategoryResponse = NoData | Stats(stats: Statistics)

  /** The filter category_level2 == c. */
  function InCategory(c: string): TransactionRecord -> bool
  {
    (x: TransactionRecord) => x.categoryLevel2 == c
  }

  /** The Sale rows of the window, restricted to the `category` argument when it is not empty. */
  function Selected(args: map<string, string>, window: seq<TransactionRecord>): (sel: seq<TransactionRecord>)
    ensures forall x :: x in sel <==>
      x in window && x.typeName == "Sale" &&
      (Arg(args, "category") == "" || x.categoryLevel2 == Arg(args, "category"))
    ensures forall x :: multiset(sel)[x] ==
                        if x.typeName == "Sale" && (Arg(args, "category") == "" || x.categoryLevel2 == Arg(args, "category"))
                        then multiset(window)[x] else 0
  {
    var c := Arg(args, "category");
    if c == "" then SaleOnly(window)
    else
      FilterCounts(SaleOnly(window), InCategory(c));
      Filter(SaleOnly(window), InCategory(c))
  }

  /** The (category_level2, amount) frame. */
  function CategoryRows(records: seq<TransactionRecord>): (rows: seq<Keyed>)
    ensures |rows| == |records|
    ensures forall i :: 0 <= i < |records| ==> rows[i] == Keyed(records[i].categoryLevel2, records[i].amount)
  {
    Project(records, (x: TransactionRecord) => x.categoryLevel2)
  }

  /** StatisticsByCategory.get over the rows of the transactions table. */
  method Get(args: map<string, string>, records: seq<TransactionRecord>) returns (r: Result<CategoryResponse>)
    ensures FetchWindow(args, records).Err? ==> r == Err(FetchWindow(args, records).error)
    ensures FetchWindow(args, records).Ok? ==> r.Ok?
    ensures FetchWindow(args, records).Ok? ==>
      (r.value == NoData <==> Selected(args, FetchWindow(args, records).value) == [])
    ensures r.Ok? && r.value.Stats? ==>
      FetchWindow(args, records).Ok? &&
      var sel := Selected(args, FetchWindow(args, records).value);
      Summarizes(r.value.stats, "category", CategoryRows(sel), LexLess, args) &&
      forall i, j :: 0 <= i < j < |r.value.stats.data| ==>
        LexLess(r.value.stats.data[i].key, r.value.stats.data[j].key)
  {
    var fetched := FetchWindow(args, records);
    if fetched.Err? {
      return Err(fetched.error);
    }
    var sel := Selected(args, fetched.value);
    if sel == [] {
      return Ok(NoData);
    }
    var rows := CategoryRows(sel);
    LexTotal(RowKeys(rows));
    var s := Summarize("category", rows, LexLess, args);
    return Ok(Stats(s));
  }

  /** With a category given, the answer holds a single bucket: that category, carrying the whole total. */
  lemma OneCategoryOneBucket(s: Statistics, sel: seq<TransactionRecord>, c: string, query: map<string, string>)
    requires sel != [] && forall x :: x in sel ==> x.categoryLevel2 == c
    requires Summarizes(s, "category", CategoryRows(sel), LexLess, query)
    ensures |s.data| == 1 && s.data[0] == DataEntry("category", c, s.total)
  {
    SingleCategoryKeys(sel, c);
    assert c in RowKeys(CategoryRows(sel));
    forall j | 0 <= j < |s.data| ensures s.data[j].key == c {
      assert s.data[j].key in RowKeys(CategoryRows(sel));
    }
    SingleKeyOneEntry(s.data, c);
  }

  /** Rows all of category c group under the one key c. */
  lemma SingleCategoryKeys(sel: seq<TransactionRecord>, c: string)
    requires sel != [] && forall x :: x in sel ==> x.categoryLevel2 == c
    ensures RowKeys(CategoryRows(sel)) == {c}
  {
    var rows := CategoryRows(sel);
    assert rows[0].key == c;
    forall k | k in RowKeys(rows) ensures k == c {
      var i :| 0 <= i < |rows| && rows[i].key == k;
      assert sel[i] in sel;
    }
  }

  /** Distinct keys that are all c leave exactly one entry, carrying the whole total. */
  lemma SingleKeyOneEntry(data: seq<DataEntry>, c: string)
    requires data != []
    requires forall i :: 0 <= i < |data| ==> data[i].key == c
    requires forall i, j :: 0 <= i < j < |data| ==> data[i].key != data[j].key
    ensures |data| == 1 && data[0].key == c && DataTotal(data) == data[0].amount
  {
    FirstTwoKeysDiffer(data);
    assert data == [data[0]];
  }

  lemma FirstTwoKeysDiffer(data: seq<DataEntry>)
    requires forall i, j :: 0 <= i < j < |data| ==> data[i].key != data[j].key
    ensures |data| > 1 ==> data[0].key != data[1].key
  {
  }

  lemma CategoryRowsAppendOne(xs: seq<TransactionRecord>, x: TransactionRecord)
    ensures CategoryRows(xs + [x]) == CategoryRows(xs) + [Keyed(x.categoryLevel2, x.amount)]
  {
  }

  /** A category's bucket in the unrestricted answer sums what the answer restricted to it totals. */
  lemma {:induction false} CategoryBucketIsFilteredTotal(xs: seq<TransactionRecord>, c: string)
    ensures SumFor(CategoryRows(xs), c) == Total(CategoryRows(Filter(xs, InCategory(c))))
  {
    if xs != [] {
      var init, last := xs[..|xs| - 1], xs[|xs| - 1];
      assert xs == init + [last];
      var row := Keyed(last.categoryLevel2, last.amount);
      CategoryBucketIsFilteredTotal(init, c);
      CategoryRowsAppendOne(init, last);
      SumForAppendOne(CategoryRows(init), row, c);
      FilterSnoc(xs, InCategory(c));
      var f := Filter(init, InCategory(c));
      if last.categoryLevel2 == c {
        CategoryRowsAppendOne(f, last);
        TotalAppendOne(CategoryRows(f), row);
      }
    }
  }
}

=== FILE: statistics_by_date.dfy ===
/**
 * GET statistics by date: the `by` granularity check, the strict date
 * window, the Sale restriction, the bucket key of each granularity, the
 * group-sum and the per-granularity sort of the buckets, and the summary.
 */
module StatisticsByDate {
  import opened Common
  import opened Decimal
  import opened Calendar
  import opened DateTimeUtils
  import opened Strptime
  import opened Models
  import opened Aggregation
  import opened Query

  datatype Granularity = ByYear | ByMonth | ByDay | ByQuarter

  function GranularityName(g: Granularity): string
  {
    match g
    case ByYear => "year"
    case ByMonth => "month"
    case ByDay => "day"
    case ByQuarter => "quarter"
  }

  const ByMessage: string :=
    "'by' is required query parameter. It can be one of ['year', 'month', 'day', 'quarter']."

  /** The `by` argument: one of the four names, or a client error (also for a missing or empty one). */
  function ParseBy(name: string): (r: Result<Granularity>)
    ensures r.Ok? <==> name == "year" || name == "month" || name == "day" || name == "quarter"
    ensures r.Ok? ==> GranularityName(r.value) == name
    ensures r.Err? ==> r.error == ClientError(ByMessage)
  {
    if name == "year" then Ok(ByYear)
    else if name == "month" then Ok(ByMonth)
    else if name == "day" then Ok(ByDay)
    else if name == "quarter" then Ok(ByQuarter)
    else Err(ClientError(ByMessage))
  }

  // -------------------------------------------------------- bucket keys

  /** str(year). */
  function YearKey(t: DateTime): string
  {
    NatToString(t.year)
  }

  /** str(year) + "-" + str(month), with no zero padding. */
  function MonthKey(t: DateTime): string
  {
    NatToString(t.year) + "-" + NatToString(t.month)
  }

  /** str(year) + "-" + str(quarter) + "Q". */
  function QuarterKey(t: DateTime): string
  {
    NatToString(t.year) + "-" + NatToString(Quarter(t)) + "Q"
  }

  /** The day bucket is the serialized transaction_date itself. */
  function DayKey(t: DateTime): string
  {
    FormatDate(t)
  }

  function BucketKey(g: Granularity, t: DateTime): string
  {
    match g
    case ByYear => YearKey(t)
    case ByMonth => MonthKey(t)
    case ByDay => DayKey(t)
    case ByQuarter => QuarterKey(t)
  }

  /** The day key of a row is exactly what serialize wrote for its transaction_date. */
  lemma DayKeyIsSerializedDate(r: TransactionRecord)
    ensures Str(BucketKey(ByDay, r.transactionDate)) == Serialize(r)[TransactionDateColumn]
  {
    SerializedDateReadsBack(r);
  }

  /**
   * A quarter key is str(year), a dash, the digit of the quarter holding the
   * month (1 for January..March up to 4 for October..December) and the letter
   * Q; its year part reads back as the year.
   */
  lemma QuarterKeyShape(t: DateTime)
    ensures var k := QuarterKey(t);
      |k| == |NatToString(t.year)| + 3 && k[|k| - 1] == 'Q' && k[|k| - 3] == '-' &&
      '1' <= k[|k| - 2] <= '4'
    ensures var k := QuarterKey(t);
      k[..|k| - 3] == NatToString(t.year) && AllDigits(k[..|k| - 3]) && DigitsValue(k[..|k| - 3]) == t.year &&
      DigitValue(k[|k| - 2]) == Quarter(t) && 3 * Quarter(t) - 2 <= t.month <= 3 * Quarter(t)
  {
    var k := QuarterKey(t);
    assert k[..|k| - 3] == NatToString(t.year);
    NatToStringRoundTrip(t.year);
    DigitRoundTrip(Quarter(t));
  }

  // ------------------------------------------------------- bucket order

  /** pd.to_datetime of a month key, as a count of months: "2024-2" is February 2024. */
  function MonthKeyValue(key: string): (v: Option<int>)
  {
    var i := Find(key, '-');
    if i == |key| then None
    else
      var y, m := key[..i], key[i + 1..];
      if y != [] && m != [] && AllDigits(y) && AllDigits(m) then Some(DigitsValue(y) * 12 + DigitsValue(m) - 1)
      else None
  }

  /** sort_values('month', key=pd.to_datetime): the earlier month first. */
  predicate MonthLess(a: string, b: string)
  {
    var x, y := MonthKeyValue(a), MonthKeyValue(b);
    x.Some? && y.Some? && x.value < y.value
  }

  /** sort_values('day', key=pd.to_datetime): the earlier date first. */
  predicate DayLess(a: string, b: string)
  {
    match (ParseIsoDate(a), ParseIsoDate(b))
    case (Ok(x), Ok(y)) => DateBefore(x, y)
    case _ => false
  }

  /** The order the endpoint sorts the buckets of each granularity by. */
  function Order(g: Granularity): (string, string) -> bool
  {
    match g
    case ByYear => LexLess
    case ByQuarter => LexLess
    case ByMonth => MonthLess
    case ByDay => DayLess
  }

  /** A month key reads back as its year and month. */
  lemma MonthKeyReadsBack(t: DateTime)
    ensures MonthKeyValue(MonthKey(t)) == Some(t.year * 12 + t.month - 1)
  {
    var a, b := NatToString(t.year), NatToString(t.month);
    var key := MonthKey(t);
    assert key == a + ['-'] + b;
    FindAfterDigits(a, '-', b);
    assert key[..|a|] == a && key[|a| + 1..] == b;
    NatToStringRoundTrip(t.year);
    NatToStringRoundTrip(t.month);
  }

  /** Month buckets are ordered by year, then month. */
  lemma MonthOrderChronological(a: DateTime, b: DateTime)
    ensures MonthLess(MonthKey(a), MonthKey(b)) <==>
      a.year < b.year || (a.year == b.year && a.month < b.month)
  {
    MonthKeyReadsBack(a);
    MonthKeyReadsBack(b);
  }

  lemma Str2024()
    ensures NatToString(2024) == "2024"
  {
    assert NatToString(2) == "2";
    assert NatToString(20) == "20";
    assert NatToString(202) == "202";
  }

  /** Without zero padding, February 2024 sorts before October 2024 by date but after it as text. */
  lemma MonthOrderIsNotLexical()
    ensures MonthKey(Midnight(2024, 2, 1)) == "2024-2"
    ensures MonthKey(Midnight(2024, 10, 1)) == "2024-10"
    ensures MonthLess("2024-2", "2024-10")
    ensures LexLess("2024-10", "2024-2") && !LexLess("2024-2", "2024-10")
  {
    Str2024();
    assert NatToString(10) == "10";
    MonthOrderChronological(Midnight(2024, 2, 1), Midnight(2024, 10, 1));
    assert "2024-10" == "2024-" + "10" && "2024-2" == "2024-" + "2";
    LexAppend("2024-", "2024-", "10", "2");
    LexAppend("2024-", "2024-", "2", "10");
  }

  /** Day buckets are ordered by calendar date, which is also their order as text. */
  lemma DayOrderChronological(a: DateTime, b: DateTime)
    ensures DayLess(DayKey(a), DayKey(b)) <==> DateBefore(a, b)
    ensures LexLess(DayKey(a), DayKey(b)) <==> DateBefore(a, b)
  {
    ParseIsoDateRoundTrip(a);
    ParseIsoDateRoundTrip(b);
    FormatDateOrder(a, b);
  }

  /** str(year) of a year from 1000 on is its four digits. */
  lemma FourDigitYear(y: int)
    requires 1000 <= y <= 9999
    ensures |NatToString(y)| == 4 && AllDigits(NatToString(y))
    ensures DigitsValue(NatToString(y)) == y
  {
    assert Pow10(3) == 1000 && Pow10(4) == 10000;
    NatToStringLength(y, 4);
    NatToStringLength(y, 3);
    NatToStringRoundTrip(y);
  }

  /** With four-digit years, sorting year keys as text is sorting by year. */
  lemma YearOrderChronological(a: DateTime, b: DateTime)
    requires a.year >= 1000 && b.year >= 1000
    ensures LexLess(YearKey(a), YearKey(b)) <==> a.year < b.year
  {
    FourDigitYear(a.year);
    FourDigitYear(b.year);
    LexDigits(YearKey(a), YearKey(b));
  }

  /** With four-digit years, sorting quarter keys as text is sorting by year, then quarter. */
  lemma QuarterOrderChronological(a: DateTime, b: DateTime)
    requires a.year >= 1000 && b.year >= 1000
    ensures LexLess(QuarterKey(a), QuarterKey(b)) <==>
      a.year < b.year || (a.year == b.year && Quarter(a) < Quarter(b))
  {
    var ya, yb := NatToString(a.year), NatToString(b.year);
    var qa, qb := NatToString(Quarter(a)), NatToString(Quarter(b));
    FourDigitYear(a.year);
    FourDigitYear(b.year);
    assert QuarterKey(a) == ya + ("-" + (qa + "Q"));
    assert QuarterKey(b) == yb + ("-" + (qb + "Q"));
    LexAppend(ya, yb, "-" + (qa + "Q"), "-" + (qb + "Q"));
    LexDigits(ya, yb);
    LexAppend("-", "-", qa + "Q", qb + "Q");
    LexAppend(qa, qb, "Q", "Q");
    LexIrreflexive("Q");
    LexDigits(qa, qb);
    NatToStringRoundTrip(Quarter(a));
    NatToStringRoundTrip(Quarter(b));
  }

  /** Two different month keys are ordered one way or the other. */
  lemma MonthConnected(ta: DateTime, tb: DateTime)
    requires MonthKey(ta) != MonthKey(tb)
    ensures MonthLess(MonthKey(ta), MonthKey(tb)) || MonthLess(MonthKey(tb), MonthKey(ta))
  {
    MonthKeyReadsBack(ta);
    MonthKeyReadsBack(tb);
    SameMonthIndexSameKey(ta, tb);
  }

  /** Month keys with the same month index are the same key. */
  lemma SameMonthIndexSameKey(ta: DateTime, tb: DateTime)
    ensures ta.year * 12 + ta.month - 1 == tb.year * 12 + tb.month - 1 ==> MonthKey(ta) == MonthKey(tb)
  {
    if ta.year * 12 + ta.month - 1 == tb.year * 12 + tb.month - 1 {
      MonthIndexInjective(ta, tb);
    }
  }

  lemma MonthIndexInjective(ta: DateTime, tb: DateTime)
    requires ta.year * 12 + ta.month - 1 == tb.year * 12 + tb.month - 1
    ensures ta.year == tb.year && ta.month == tb.month
  {
  }

  lemma MonthLessTransitive(a: string, b: string, c: string)
    requires MonthLess(a, b) && MonthLess(b, c)
    ensures MonthLess(a, c)
  {
  }

  /** Month order is a strict total order on month keys. */
  lemma MonthTotal(S: set<string>)
    requires forall k :: k in S ==> exists t: DateTime :: k == MonthKey(t)
    ensures StrictTotalOn(MonthLess, S)
  {
    forall a, b, c | a in S && b in S && c in S && MonthLess(a, b) && MonthLess(b, c)
      ensures MonthLess(a, c)
    {
      MonthLessTransitive(a, b, c);
    }
    forall a, b | a in S && b in S && a != b ensures MonthLess(a, b) || MonthLess(b, a) {
      var ta: DateTime :| a == MonthKey(ta);
      var tb: DateTime :| b == MonthKey(tb);
      MonthConnected(ta, tb);
    }
  }

  /** Two different day keys are ordered one way or the other. */
  lemma DayConnected(ta: DateTime, tb: DateTime)
    requires DayKey(ta) != DayKey(tb)
    ensures DayLess(DayKey(ta), DayKey(tb)) || DayLess(DayKey(tb), DayKey(ta))
  {
    DayOrderChronological(ta, tb);
    DayOrderChronological(tb, ta);
    if !DateBefore(ta, tb) && !DateBefore(tb, ta) {
      FormatDateOfSameDay(ta, tb);
    }
  }

  lemma DayLessTransitive(a: string, b: string, c: string)
    requires DayLess(a, b) && DayLess(b, c)
    ensures DayLess(a, c)
  {
  }

  /** Day order is a strict total order on day keys. */
  lemma DayTotal(S: set<string>)
    requires forall k :: k in S ==> exists t: DateTime :: k == DayKey(t)
    ensures StrictTotalOn(DayLess, S)
  {
    forall a, b, c | a in S && b in S && c in S && DayLess(a, b) && DayLess(b, c)
      ensures DayLess(a, c)
    {
      DayLessTransitive(a, b, c);
    }
    forall a, b | a in S && b in S && a != b ensures DayLess(a, b) || DayLess(b, a) {
      var ta: DateTime :| a == DayKey(ta);
      var tb: DateTime :| b == DayKey(tb);
      DayConnected(ta, tb);
    }
  }

  // ------------------------------------------------------------ handler

  /** The dates pandas' nanosecond timestamps can hold, at day resolution. */
  predicate InPandasRange(t: DateTime)
  {
    !DateBefore(t, Midnight(1677, 9, 22)) && !DateBefore(Midnight(2262, 4, 11), t)
  }

  const OutOfBounds := ValueError("Out of bounds nanosecond timestamp")

  /**
   * A Sale date the handler gets through: pandas can hold the date itself
   * and, by month, the first of its month too, which is what
   * pd.to_datetime makes of the "YYYY-M" key when the buckets are sorted.
   * By day the sort key reads back as the date itself; by year and by
   * quarter the keys are sorted as text.
   */
  predicate Convertible(g: Granularity, t: DateTime)
  {
    InPandasRange(t) && (g.ByMonth? ==> InPandasRange(Midnight(t.year, t.month, 1)))
  }

  /**
   * By month exactly the dates of September 1677 that pandas can hold
   * (the 22nd to the 30th) fail at the sort; by the other granularities
   * every date pandas can hold gets through.
   */
  lemma {:induction false} ConvertibleDates(g: Granularity, t: DateTime)
    ensures Convertible(g, t) <==>
      InPandasRange(t) && !(g.ByMonth? && t.year == 1677 && t.month == 9)
  {
    if g.ByMonth? && InPandasRange(t) {
      var first := Midnight(t.year, t.month, 1);
      var lo := Midnight(1677, 9, 22);
      assert DateBefore(first, lo) <==> t.year == 1677 && t.month == 9 by {
        assert !DateBefore(t, lo);
      }
      assert !DateBefore(Midnight(2262, 4, 11), first) by {
        assert !DateBefore(Midnight(2262, 4, 11), t);
      }
    }
  }

  /** A Sale of 25 September 1677 is answered by day but not by month. */
  lemma SeptemberOf1677(t: DateTime)
    requires t.year == 1677 && t.month == 9 && t.day == 25
    ensures InPandasRange(t) && Convertible(ByDay, t) && !Convertible(ByMonth, t)
    ensures MonthKey(t) == "1677-9"
  {
    ConvertibleDates(ByDay, t);
    ConvertibleDates(ByMonth, t);
    assert NatToString(1677) == "1677" by { assert NatToString(1677) == NatToString(167) + ['7']; }
  }

  /** The (bucket key, amount) frame of the Sale rows. */
  function DateRows(g: Granularity, sales: seq<TransactionRecord>): (rows: seq<Keyed>)
    ensures |rows| == |sales|
    ensures forall i :: 0 <= i < |sales| ==>
      rows[i] == Keyed(BucketKey(g, sales[i].transactionDate), sales[i].amount)
  {
    Project(sales, (r: TransactionRecord) => BucketKey(g, r.transactionDate))
  }

  /** Every granularity's order totally orders the keys it is applied to. */
  lemma KeysTotallyOrdered(g: Granularity, sales: seq<TransactionRecord>)
    ensures StrictTotalOn(Order(g), RowKeys(DateRows(g, sales)))
  {
    var rows := DateRows(g, sales);
    var S := RowKeys(rows);
    match g
    case ByYear => LexTotal(S);
    case ByQuarter => LexTotal(S);
    case ByMonth =>
      forall k | k in S ensures exists t: DateTime :: k == MonthKey(t) {
        var i :| 0 <= i < |rows| && rows[i].key == k;
        assert k == MonthKey(sales[i].transactionDate);
      }
      MonthTotal(S);
    case ByDay =>
      forall k | k in S ensures exists t: DateTime :: k == DayKey(t) {
        var i :| 0 <= i < |rows| && rows[i].key == k;
        assert k == DayKey(sales[i].transactionDate);
      }
      DayTotal(S);
  }

  /**
   * StatisticsByDate.get over the rows of the transactions table. `by` is
   * checked first, then startDate and endDate are parsed; an empty window
   * leaves a frame without a `type` column, and a Sale date outside
   * pandas' range (or, by month, a month key read back as a month start
   * outside it) stops pd.to_datetime.
   */
  method Get(args: map<string, string>, records: seq<TransactionRecord>) returns (r: Result<Statistics>)
    ensures ParseBy(Arg(args, "by")).Err? ==> r == Err(ClientError(ByMessage))
    ensures ParseBy(Arg(args, "by")).Ok? && FetchWindow(args, records).Err? ==>
      r == Err(FetchWindow(args, records).error)
    ensures ParseBy(Arg(args, "by")).Ok? && FetchWindow(args, records) == Ok([]) ==>
      r.Err? && r.error.AttributeError?
    ensures (ParseBy(Arg(args, "by")).Ok? && FetchWindow(args, records).Ok? &&
             exists x :: x in SaleOnly(FetchWindow(args, records).value) &&
               !Convertible(ParseBy(Arg(args, "by")).value, x.transactionDate))
      ==> r == Err(OutOfBounds)
    ensures (ParseBy(Arg(args, "by")).Ok? && FetchWindow(args, records).Ok? &&
             FetchWindow(args, records).value != [] &&
             forall x :: x in SaleOnly(FetchWindow(args, records).value) ==>
               Convertible(ParseBy(Arg(args, "by")).value, x.transactionDate))
      ==> r.Ok?
    ensures r.Ok? ==>
      ParseBy(Arg(args, "by")).Ok? && FetchWindow(args, records).Ok? &&
      FetchWindow(args, records).value != [] &&
      var g := ParseBy(Arg(args, "by")).value;
      var sales := SaleOnly(FetchWindow(args, records).value);
      (forall x :: x in sales ==> Convertible(g, x.transactionDate)) &&
      Summarizes(r.value, "date", DateRows(g, sales), Order(g), args) &&
      forall i, j :: 0 <= i < j < |r.value.data| ==> Order(g)(r.value.data[i].key, r.value.data[j].key)
  {
    var parsed := ParseBy(Arg(args, "by"));
    if parsed.Err? {
      return Err(parsed.error);
    }
    var fetched := FetchWindow(args, records);
    if fetched.Err? {
      return Err(fetched.error);
    }
    var window := fetched.value;
    if window == [] {
      return Err(AttributeError("'DataFrame' object has no attribute 'type'"));
    }
    var sales := SaleOnly(window);
    if exists x :: x in sales && !Convertible(parsed.value, x.transactionDate) {
      return Err(OutOfBounds);
    }
    var rows := DateRows(parsed.value, sales);
    KeysTotallyOrdered(parsed.value, sales);
    var s := Summarize("date", rows, Order(parsed.value), args);
    return Ok(s);
  }

  /**
   * In an answer by year, every Sale date is in pandas' range, so years have
   * four digits and the buckets, sorted as text, come out year by year.
   */
  lemma YearBucketsChronological(data: seq<DataEntry>, sales: seq<TransactionRecord>)
    requires forall x :: x in sales ==> InPandasRange(x.transactionDate)
    requires forall i, j :: 0 <= i < j < |data| ==> LexLess(data[i].key, data[j].key)
    ensures forall i, j, a, b ::
      (0 <= i < j < |data| && a in sales && b in sales &&
       data[i].key == YearKey(a.transactionDate) && data[j].key == YearKey(b.transactionDate)) ==>
      a.transactionDate.year < b.transactionDate.year
  {
    forall i, j, a, b | 0 <= i < j < |data| && a in sales && b in sales &&
      data[i].key == YearKey(a.transactionDate) && data[j].key == YearKey(b.transactionDate)
      ensures a.transactionDate.year < b.transactionDate.year
    {
      YearOrderChronological(a.transactionDate, b.transactionDate);
    }
  }

  /** In an answer by quarter, the buckets, sorted as text, come out quarter by quarter. */
  lemma QuarterBucketsChronological(data: seq<DataEntry>, sales: seq<TransactionRecord>)
    requires forall x :: x in sales ==> InPandasRange(x.transactionDate)
    requires forall i, j :: 0 <= i < j < |data| ==> LexLess(data[i].key, data[j].key)
    ensures forall i, j, a, b ::
      (0 <= i < j < |data| && a in sales && b in sales &&
       data[i].key == QuarterKey(a.transactionDate) && data[j].key == QuarterKey(b.transactionDate)) ==>
      a.transactionDate.year < b.transactionDate.year ||
      (a.transactionDate.year == b.transactionDate.year && Quarter(a.transactionDate) < Quarter(b.transactionDate))
  {
    forall i, j, a, b | 0 <= i < j < |data| && a in sales && b in sales &&
      data[i].key == QuarterKey(a.transactionDate) && data[j].key == QuarterKey(b.transactionDate)
      ensures a.transactionDate.year < b.transactionDate.year ||
        (a.transactionDate.year == b.transactionDate.year && Quarter(a.transactionDate) < Quarter(b.transactionDate))
    {
      QuarterOrderChronological(a.transactionDate, b.transactionDate);
    }
  }
}

=== FILE: statistics_by_source.dfy ===
/**
 * GET statistics by source: the Sale rows inside the optional date window,
 * grouped by source in text order. Unlike the by-category endpoint there is
 * no guard for an empty selection, which leaves a frame without columns.
 */
module StatisticsBySource {
  import opened Common
  import opened Decimal
  import opened Models
  import opened Aggregation
  import opened Query
  import StatisticsByCategory

  /** The error `.loc[:, ["amount", "source"]]` raises on a frame without columns. */
  const MissingColumns := KeyError("None of [Index(['amount', 'source'], dtype='object')] are in the [columns]")

  /** The (source, amount) frame. */
  function SourceRows(records: seq<TransactionRecord>): (rows: seq<Keyed>)
    ensures |rows| == |records|
    ensures forall i :: 0 <= i < |records| ==> rows[i] == Keyed(records[i].source, records[i].amount)
  {
    Project(records, (x: TransactionRecord) => x.source)
  }

  /** StatisticsBySource.get over the rows of the transactions table. */
  method Get(args: map<string, string>, records: seq<TransactionRecord>) returns (r: Result<Statistics>)
    ensures FetchWindow(args, records).Err? ==> r == Err(FetchWindow(args, records).error)
    ensures FetchWindow(args, records).Ok? ==>
      (r.Err? <==> SaleOnly(FetchWindow(args, records).value) == [])
    ensures FetchWindow(args, records).Ok? && r.Err? ==> r.error == MissingColumns
    ensures r.Ok? ==>
      FetchWindow(args, records).Ok? &&
      var sales := SaleOnly(FetchWindow(args, records).value);
      Summarizes(r.value, "source", SourceRows(sales), LexLess, args) &&
      forall i, j :: 0 <= i < j < |r.value.data| ==> LexLess(r.value.data[i].key, r.value.data[j].key)
  {
    var fetched := FetchWindow(args, records);
    if fetched.Err? {
      return Err(fetched.error);
    }
    var sales := SaleOnly(fetched.value);
    if sales == [] {
      return Err(MissingColumns);
    }
    var rows := SourceRows(sales);
    LexTotal(RowKeys(rows));
    var s := Summarize("source", rows, LexLess, args);
    return Ok(s);
  }

  /** Grouping the same rows by source or by category changes the buckets, never the summary. */
  lemma SameSummaryAsByCategory(bySource: Statistics, byCategory: Statistics, sales: seq<TransactionRecord>,
                                query: map<string, string>)
    requires Summarizes(bySource, "source", SourceRows(sales), LexLess, query)
    requires Summarizes(byCategory, "category", StatisticsByCategory.CategoryRows(sales), LexLess, query)
    ensures bySource.total == byCategory.total && bySource.count == byCategory.count
    ensures bySource.max == byCategory.max && bySource.min == byCategory.min
    ensures DataTotal(bySource.data) == DataTotal(byCategory.data)
  {
    assert Amounts(SourceRows(sales)) == Amounts(StatisticsByCategory.CategoryRows(sales));
  }
}

=== FILE: strptime.dfy ===
/**
 * datetime.strptime for the two formats the core uses: "%Y-%m-%d" (query
 * bounds of the statistics handlers) and "%m/%d/%Y" (transaction dates in
 * the controller). %Y is exactly four ASCII digits; %m accepts "1".."9",
 * "01".."09" and "10".."12"; %d accepts "1".."9", " 1".." 9" and
 * "01".."31"; the whole text must be consumed; the date must then exist
 * (year 0 and a day past the end of the month are refused).
 */
module Strptime {
  import opened Common
  import opened Decimal
  import opened Calendar
  import opened DateTimeUtils

  /** The text %Y matches, as a number. */
  function YearField(tok: string): (r: Option<int>)
    ensures r.Some? ==> 0 <= r.value <= 9999
  {
    if |tok| == 4 && AllDigits(tok) then
      DigitsValueBound(tok);
      Some(DigitsValue(tok))
    else None
  }

  /** The text %m matches (1[0-2]|0[1-9]|[1-9]) when it is the whole field. */
  function MonthField(tok: string): (r: Option<int>)
    ensures r.Some? ==> 1 <= r.value <= 12
  {
    if |tok| == 2 && AllDigits(tok) && 1 <= DigitsValue(tok) <= 12 then Some(DigitsValue(tok))
    else if |tok| == 1 && IsDigit(tok[0]) && tok[0] != '0' then Some(DigitValue(tok[0]))
    else None
  }

  /** The text %d matches (3[01]|[12]\d|0[1-9]|[1-9]| [1-9]) when it is the whole field. */
  function DayField(tok: string): (r: Option<int>)
    ensures r.Some? ==> 1 <= r.value <= 31
  {
    if |tok| == 2 && AllDigits(tok) && 1 <= DigitsValue(tok) <= 31 then Some(DigitsValue(tok))
    else if |tok| == 1 && IsDigit(tok[0]) && tok[0] != '0' then Some(DigitValue(tok[0]))
    else if |tok| == 2 && tok[0] == ' ' && IsDigit(tok[1]) && tok[1] != '0' then Some(DigitValue(tok[1]))
    else None
  }

  const NoMatch := ValueError("time data does not match format")

  /** The final step of strptime: building datetime(y, m, d), which refuses impossible dates. */
  function MakeDate(y: int, m: int, d: int): (r: Result<DateTime>)
    requires 0 <= y <= 9999 && 1 <= m <= 12 && 1 <= d <= 31
    ensures r.Ok? <==> ValidDate(y, m, d)
    ensures r.Ok? ==> r.value == Midnight(y, m, d)
  {
    if y < 1 then Err(ValueError("year 0 is out of range"))
    else if d > DaysInMonth(y, m) then Err(ValueError("day is out of range for month"))
    else Ok(Midnight(y, m, d))
  }

  /** datetime.strptime(s, "%Y-%m-%d"). */
  function ParseIsoDate(s: string): (r: Result<DateTime>)
    ensures r.Ok? ==> r.value.hour == 0 && r.value.minute == 0 && r.value.second == 0
    ensures r.Err? ==> r.error.ValueError?
  {
    if |s| < 5 || s[4] != '-' then Err(NoMatch)
    else
      var rest := s[5..];
      var i := Find(rest, '-');
      if i == |rest| then Err(NoMatch)
      else
        match (YearField(s[..4]), MonthField(rest[..i]), DayField(rest[i + 1..]))
        case (Some(y), Some(m), Some(d)) => MakeDate(y, m, d)
        case _ => Err(NoMatch)
  }

  /** datetime.strptime(s, "%m/%d/%Y"). */
  function ParseUsDate(s: string): (r: Result<DateTime>)
    ensures r.Ok? ==> r.value.hour == 0 && r.value.minute == 0 && r.value.second == 0
    ensures r.Err? ==> r.error.ValueError?
  {
    var i := Find(s, '/');
    if i == |s| then Err(NoMatch)
    else
      var rest := s[i + 1..];
      var j := Find(rest, '/');
      if j == |rest| then Err(NoMatch)
      else
        match (MonthField(s[..i]), DayField(rest[..j]), YearField(rest[j + 1..]))
        case (Some(m), Some(d), Some(y)) => MakeDate(y, m, d)
        case _ => Err(NoMatch)
  }

  /** value.strftime("%m/%d/%Y"), the layout ParseUsDate reads. */
  function FormatUsDate(t: DateTime): (s: string)
    ensures |s| == 10 && s[2] == '/' && s[5] == '/'
  {
    TwoDigits(t.month) + "/" + TwoDigits(t.day) + "/" + FourDigits(t.year)
  }

  lemma PaddedMonthField(m: int)
    requires 1 <= m <= 12
    ensures MonthField(TwoDigits(m)) == Some(m)
  {
    TwoDigitsValue(m);
  }

  lemma PaddedDayField(d: int)
    requires 1 <= d <= 31
    ensures DayField(TwoDigits(d)) == Some(d)
  {
    TwoDigitsValue(d);
  }

  /** Parsing dump_date's text with "%Y-%m-%d" gives back midnight of the same calendar date. */
  lemma ParseIsoDateRoundTrip(t: DateTime)
    ensures ParseIsoDate(FormatDate(t)) == Ok(Midnight(t.year, t.month, t.day))
  {
    FormatDateFields(t);
    var s := FormatDate(t);
    var y, m, d := s[..4], s[5..7], s[8..];
    assert s == y + "-" + m + "-" + d;
    var rest := s[5..];
    assert rest == m + ['-'] + d;
    FindAfterDigits(m, '-', d);
    assert rest[..2] == m && rest[3..] == d;
  }

  /** Parsing the "%m/%d/%Y" text of a datetime gives back midnight of its calendar date. */
  lemma ParseUsDateRoundTrip(t: DateTime)
    ensures ParseUsDate(FormatUsDate(t)) == Ok(Midnight(t.year, t.month, t.day))
  {
    var m, d, y := TwoDigits(t.month), TwoDigits(t.day), FourDigits(t.year);
    var s := FormatUsDate(t);
    assert s == m + ['/'] + (d + "/" + y);
    FindAfterDigits(m, '/', d + "/" + y);
    var rest := s[3..];
    assert rest == d + ['/'] + y;
    FindAfterDigits(d, '/', y);
    assert s[..2] == m && rest[..2] == d && rest[3..] == y;
    PaddedMonthField(t.month);
    PaddedDayField(t.day);
    FourDigitsValue(t.year);
  }

  // ------------------------------------------------------- accepted spellings

  /** The texts %m reads as month m: zero-padded or not. */
  function MonthSpellings(m: int): (texts: set<string>)
    requires 1 <= m <= 12
    ensures TwoDigits(m) in texts && NatToString(m) in texts
  {
    {TwoDigits(m), NatToString(m)}
  }

  /** The texts %d reads as day d: zero-padded, space-padded below 10, or not padded. */
  function DaySpellings(d: int): (texts: set<string>)
    requires 1 <= d <= 31
    ensures TwoDigits(d) in texts && NatToString(d) in texts
  {
    {TwoDigits(d), NatToString(d)} + (if d < 10 then {[' ', DigitChar(d)]} else {})
  }

  /** %Y reads exactly the four-digit spelling of a year. */
  lemma YearFieldSpelling(tok: string, y: int)
    requires 0 <= y <= 9999
    ensures YearField(tok) == Some(y) <==> tok == FourDigits(y)
  {
    FourDigitsValue(y);
    if |tok| == 4 && AllDigits(tok) {
      FourDigitsOfValue(tok);
    }
  }

  /** %m reads month m from exactly its spellings. */
  lemma MonthFieldSpelling(tok: string, m: int)
    requires 1 <= m <= 12
    ensures MonthField(tok) == Some(m) <==> tok in MonthSpellings(m)
  {
    SmallNatToString(m);
    TwoDigitsValue(m);
    DigitRoundTrip(m % 10);
    if |tok| == 2 && AllDigits(tok) {
      TwoDigitsOfValue(tok);
    }
    if |tok| == 1 && IsDigit(tok[0]) {
      DigitCharOfValue(tok[0]);
      assert tok == [DigitChar(DigitValue(tok[0]))];
    }
  }

  /** %d reads day d from exactly its spellings. */
  lemma DayFieldSpelling(tok: string, d: int)
    requires 1 <= d <= 31
    ensures DayField(tok) == Some(d) <==> tok in DaySpellings(d)
  {
    SmallNatToString(d);
    TwoDigitsValue(d);
    DigitRoundTrip(d % 10);
    if |tok| == 2 && AllDigits(tok) {
      TwoDigitsOfValue(tok);
    }
    if |tok| == 1 && IsDigit(tok[0]) {
      DigitCharOfValue(tok[0]);
      assert tok == [DigitChar(DigitValue(tok[0]))];
    }
    if |tok| == 2 && tok[0] == ' ' && IsDigit(tok[1]) {
      DigitCharOfValue(tok[1]);
      assert tok == [' ', DigitChar(DigitValue(tok[1]))];
    }
  }

  /** No spelling of a month or a day contains a separator. */
  lemma SpellingsHaveNoSeparator(m: int, d: int)
    requires 1 <= m <= 12 && 1 <= d <= 31
    ensures forall tok :: tok in MonthSpellings(m) ==> '/' !in tok && '-' !in tok
    ensures forall tok :: tok in DaySpellings(d) ==> '/' !in tok && '-' !in tok
  {
    TwoDigitsValue(m);
    TwoDigitsValue(d);
  }

  /** Each spelling of month and day, with the four year digits, is read as that date. */
  lemma UsSpellingParses(m: string, d: string, t: DateTime)
    requires m in MonthSpellings(t.month) && d in DaySpellings(t.day)
    ensures ParseUsDate(m + "/" + d + "/" + FourDigits(t.year)) == Ok(Midnight(t.year, t.month, t.day))
  {
    var y := FourDigits(t.year);
    var s := m + "/" + d + "/" + y;
    SpellingsHaveNoSeparator(t.month, t.day);
    assert s == m + ['/'] + (d + "/" + y);
    FindSeparator(m, '/', d + "/" + y);
    var rest := s[|m| + 1..];
    assert rest == d + ['/'] + y;
    FindSeparator(d, '/', y);
    assert s[..|m|] == m && rest[..|d|] == d && rest[|d| + 1..] == y;
    MonthFieldSpelling(m, t.month);
    DayFieldSpelling(d, t.day);
    YearFieldSpelling(y, t.year);
  }

  /**
   * "%m/%d/%Y" reads a text as a given date exactly when the text is a
   * spelling of its month, a slash, a spelling of its day, a slash and the
   * four year digits ("01/05/2024", "1/5/2024" and "1/ 5/2024" alike).
   */
  lemma ParseUsDateSpellings(s: string, t: DateTime)
    ensures ParseUsDate(s) == Ok(Midnight(t.year, t.month, t.day)) <==>
      exists m, d :: m in MonthSpellings(t.month) && d in DaySpellings(t.day) &&
        s == m + "/" + d + "/" + FourDigits(t.year)
  {
    if ParseUsDate(s) == Ok(Midnight(t.year, t.month, t.day)) {
      var i := Find(s, '/');
      var rest := s[i + 1..];
      var j := Find(rest, '/');
      var m, d, y := s[..i], rest[..j], rest[j + 1..];
      assert MonthField(m) == Some(t.month) && DayField(d) == Some(t.day) && YearField(y) == Some(t.year);
      MonthFieldSpelling(m, t.month);
      DayFieldSpelling(d, t.day);
      YearFieldSpelling(y, t.year);
      assert rest == d + "/" + y;
      assert s == m + "/" + d + "/" + y;
    }
    forall m, d | m in MonthSpellings(t.month) && d in DaySpellings(t.day) &&
      s == m + "/" + d + "/" + FourDigits(t.year)
      ensures ParseUsDate(s) == Ok(Midnight(t.year, t.month, t.day))
    {
      UsSpellingParses(m, d, t);
    }
  }

  /** The four year digits, each spelling of month and day, are read as that date. */
  lemma IsoSpellingParses(m: string, d: string, t: DateTime)
    requires m in MonthSpellings(t.month) && d in DaySpellings(t.day)
    ensures ParseIsoDate(FourDigits(t.year) + "-" + m + "-" + d) == Ok(Midnight(t.year, t.month, t.day))
  {
    var y := FourDigits(t.year);
    var s := y + "-" + m + "-" + d;
    SpellingsHaveNoSeparator(t.month, t.day);
    var rest := s[5..];
    assert s[..4] == y && s[4] == '-';
    assert rest == m + ['-'] + d;
    FindSeparator(m, '-', d);
    assert rest[..|m|] == m && rest[|m| + 1..] == d;
    MonthFieldSpelling(m, t.month);
    DayFieldSpelling(d, t.day);
    YearFieldSpelling(y, t.year);
  }

  /**
   * "%Y-%m-%d" reads a text as a given date exactly when the text is the four
   * year digits, a dash, a spelling of its month, a dash and a spelling of its
   * day ("2024-01-05", "2024-1-5" and "2024-1- 5" alike).
   */
  lemma ParseIsoDateSpellings(s: string, t: DateTime)
    ensures ParseIsoDate(s) == Ok(Midnight(t.year, t.month, t.day)) <==>
      exists m, d :: m in MonthSpellings(t.month) && d in DaySpellings(t.day) &&
        s == FourDigits(t.year) + "-" + m + "-" + d
  {
    if ParseIsoDate(s) == Ok(Midnight(t.year, t.month, t.day)) {
      var rest := s[5..];
      var i := Find(rest, '-');
      var y, m, d := s[..4], rest[..i], rest[i + 1..];
      assert YearField(y) == Some(t.year) && MonthField(m) == Some(t.month) && DayField(d) == Some(t.day);
      MonthFieldSpelling(m, t.month);
      DayFieldSpelling(d, t.day);
      YearFieldSpelling(y, t.year);
      assert rest == m + "-" + d;
      assert s == y + "-" + m + "-" + d;
    }
    forall m, d | m in MonthSpellings(t.month) && d in DaySpellings(t.day) &&
      s == FourDigits(t.year) + "-" + m + "-" + d
      ensures ParseIsoDate(s) == Ok(Midnight(t.year, t.month, t.day))
    {
      IsoSpellingParses(m, d, t);
    }
  }
}

=== FILE: transaction_controller.dfy ===
/**
 * add_transaction: build one TransactionModel from a request dictionary,
 * turning falsy foreign-key values into NULL and parsing the date as
 * "%m/%d/%Y", and add it to the session.
 */
module TransactionController {
  import opened Common
  import opened Calendar
  import opened Strptime
  import opened Models
  import opened DbSession

  /** dict.get(key): None when the key is missing. */
  function Lookup(data: map<string, Value>, key: string): (v: Value)
    ensures key in data ==> v == data[key]
    ensures key !in data ==> v == Null
  {
    if key in data then data[key] else Null
  }

  /** data.get(key) or None: a falsy value (missing, None, "", 0, False, [] or {}) becomes NULL. */
  function Sanitize(data: map<string, Value>, key: string): (v: Value)
    ensures v == Null <==> key !in data || !Truthy(data[key])
    ensures v != Null ==> v == data[key]
  {
    var x := Lookup(data, key);
    if Truthy(x) then x else Null
  }

  /** datetime.strptime(data['transaction_date'], '%m/%d/%Y'). */
  function ParseTransactionDate(data: map<string, Value>): (r: Result<DateTime>)
    ensures "transaction_date" !in data ==> r == Err(KeyError("transaction_date"))
    ensures "transaction_date" in data && data["transaction_date"].Str? ==>
      r == ParseUsDate(data["transaction_date"].s)
    ensures "transaction_date" in data && !data["transaction_date"].Str? ==> r.Err? && r.error.TypeError?
  {
    if "transaction_date" !in data then Err(KeyError("transaction_date"))
    else
      match data["transaction_date"]
      case Str(s) => ParseUsDate(s)
      case v => Err(TypeError("strptime() argument 1 must be str, not " + PyTypeName(v)))
  }

  /** The model add_transaction builds, or the exception building it raises. */
  function NewTransaction(data: map<string, Value>, now: DateTime, systemUser: string)
    : (r: Result<TransactionModel>)
    ensures r.Err? <==> ParseTransactionDate(data).Err?
    ensures r.Err? ==> r.error == ParseTransactionDate(data).error
  {
    match ParseTransactionDate(data)
    case Err(e) => Err(e)
    case Ok(date) =>
      Ok(TransactionModel(
        transactionDate := Stamp(date),
        description := Lookup(data, "description"),
        notes := Lookup(data, "notes"),
        categoryLevel1 := Sanitize(data, "category_level1"),
        categoryLevel2 := Sanitize(data, "category_level2"),
        typeName := Sanitize(data, "type_name"),
        amount := Lookup(data, "amount"),
        source := Sanitize(data, "source"),
        createdAt := Stamp(now),
        createdBy := Str(systemUser),
        modifiedAt := Stamp(now),
        modifiedBy := Str(systemUser)))
  }

  /**
   * What the built model holds: the parsed date at midnight, the free-text
   * fields and the amount as given, each foreign key as given when truthy
   * and NULL otherwise, and the same time and user in both audit pairs.
   */
  lemma NewTransactionFields(data: map<string, Value>, now: DateTime, systemUser: string)
    requires NewTransaction(data, now, systemUser).Ok?
    ensures var m := NewTransaction(data, now, systemUser).value;
      var d := data["transaction_date"].s;
      ParseUsDate(d).Ok? && m.transactionDate == Stamp(ParseUsDate(d).value) &&
      m.transactionDate.t.hour == 0 && m.transactionDate.t.minute == 0 && m.transactionDate.t.second == 0 &&
      m.description == Lookup(data, "description") && m.notes == Lookup(data, "notes") &&
      m.amount == Lookup(data, "amount") &&
      m.categoryLevel1 == (if Given(data, "category_level1") then data["category_level1"] else Null) &&
      m.categoryLevel2 == (if Given(data, "category_level2") then data["category_level2"] else Null) &&
      m.typeName == (if Given(data, "type_name") then data["type_name"] else Null) &&
      m.source == (if Given(data, "source") then data["source"] else Null) &&
      m.createdAt == m.modifiedAt == Stamp(now) && m.createdBy == m.modifiedBy == Str(systemUser)
  {
  }

  /** A date written back in "%m/%d/%Y" is accepted and read back as that day. */
  lemma UsDateAccepted(data: map<string, Value>, t: DateTime, now: DateTime, systemUser: string)
    requires "transaction_date" in data && data["transaction_date"] == Str(FormatUsDate(t))
    ensures NewTransaction(data, now, systemUser).Ok?
    ensures NewTransaction(data, now, systemUser).value.transactionDate == Stamp(Midnight(t.year, t.month, t.day))
  {
    ParseUsDateRoundTrip(t);
  }

  /**
   * The built model meets the table's NOT NULL constraints exactly when the
   * four foreign keys are truthy and description and amount are present and
   * not None.
   */
  lemma NewTransactionNotNull(data: map<string, Value>, now: DateTime, systemUser: string)
    requires NewTransaction(data, now, systemUser).Ok?
    ensures SatisfiesNotNull(NewTransaction(data, now, systemUser).value) <==>
      Given(data, "category_level1") && Given(data, "category_level2") &&
      Given(data, "type_name") && Given(data, "source") &&
      Lookup(data, "description") != Null && Lookup(data, "amount") != Null
  {
    var m := NewTransaction(data, now, systemUser).value;
    assert m.categoryLevel1 == Sanitize(data, "category_level1") && m.categoryLevel2 == Sanitize(data, "category_level2");
    assert m.typeName == Sanitize(data, "type_name") && m.source == Sanitize(data, "source");
    assert m.description == Lookup(data, "description") && m.amount == Lookup(data, "amount");
  }

  /** The key is present with a truthy value, so that `or None` keeps it. */
  predicate Given(data: map<string, Value>, key: string)
  {
    key in data && Truthy(data[key])
  }

  /**
   * add_transaction: one session.add of the built model; nothing is added
   * when building it raises.
   */
  method AddTransaction(session: Session, data: map<string, Value>, now: DateTime, systemUser: string)
    returns (e: Option<Error>)
    modifies session
    ensures NewTransaction(data, now, systemUser).Err? ==>
      e == Some(NewTransaction(data, now, systemUser).error) && session.pending == old(session.pending)
    ensures NewTransaction(data, now, systemUser).Ok? ==>
      e.None? && session.pending == old(session.pending) + [NewTransaction(data, now, systemUser).value]
    ensures session.stored == old(session.stored) && session.inactive == old(session.inactive)
  {
    var built := NewTransaction(data, now, systemUser);
    if built.Err? {
      return Some(built.error);
    }
    session.Add(built.value);
    return None;
  }
}

=== FILE: transactions.dfy ===
/**
 * The /transactions resource: GET lists the rows of a look-back period
 * under renamed keys; POST turns a JSON array of objects into new rows in
 * one commit and answers with a success or failure message.
 */
module Transactions {
  import opened Common
  import opened Calendar
  import opened DateTimeUtils
  import opened Models
  import opened DbSession

  // ------------------------------------------------------------------ GET

  /** The `period` argument's look-back in days; any other value lists everything. */
  function LookbackDays(period: string): (days: Option<nat>)
    ensures days.Some? <==> period in {"1Mo", "3Mo", "6Mo", "1Yr", "3Yr", "5Yr"}
    ensures days.Some? ==> 30 <= days.value <= 5 * 365
  {
    if period == "1Mo" then Some(30)
    else if period == "3Mo" then Some(90)
    else if period == "6Mo" then Some(180)
    else if period == "1Yr" then Some(365)
    else if period == "3Yr" then Some(365 * 3)
    else if period == "5Yr" then Some(365 * 5)
    else None
  }

  /** now - timedelta(days=days), in seconds since 0001-01-01; below that datetime overflows. */
  function Cutoff(now: DateTime, days: nat): (r: Result<int>)
    ensures r.Ok? <==> Seconds(now) >= days * 86400
    ensures r.Ok? ==> r.value == Seconds(now) - days * 86400 && r.value >= 0
    ensures r.Err? ==> r.error.OverflowError?
  {
    var c := Seconds(now) - days * 86400;
    if c < 0 then Err(OverflowError("date value out of range")) else Ok(c)
  }

  /** The filter transaction_date >= start_date. */
  function OnOrAfter(cutoff: int): TransactionRecord -> bool
  {
    (r: TransactionRecord) => Seconds(r.transactionDate) >= cutoff
  }

  /** The rows the query of a period returns, in table order. */
  function Listed(period: string, now: DateTime, records: seq<TransactionRecord>)
    : (r: Result<seq<TransactionRecord>>)
    ensures LookbackDays(period).None? ==> r == Ok(records)
    ensures LookbackDays(period).Some? ==>
      match Cutoff(now, LookbackDays(period).value)
      case Err(e) => r == Err(e)
      case Ok(c) =>
        r.Ok? && (forall x :: x in r.value <==> x in records && Seconds(x.transactionDate) >= c) &&
        (forall x :: multiset(r.value)[x] == if Seconds(x.transactionDate) >= c then multiset(records)[x] else 0)
  {
    match LookbackDays(period)
    case None => Ok(records)
    case Some(days) =>
      match Cutoff(now, days)
      case Err(e) => Err(e)
      case Ok(c) =>
        FilterCounts(records, OnOrAfter(c));
        Ok(Filter(records, OnOrAfter(c)))
  }

  /** A longer period lists every row a shorter one lists. */
  lemma LongerPeriodListsMore(p: string, q: string, now: DateTime, records: seq<TransactionRecord>)
    requires LookbackDays(p).Some? && LookbackDays(q).Some?
    requires LookbackDays(p).value <= LookbackDays(q).value
    requires Listed(p, now, records).Ok? && Listed(q, now, records).Ok?
    ensures multiset(Listed(p, now, records).value) <= multiset(Listed(q, now, records).value)
  {
    var cp := Cutoff(now, LookbackDays(p).value).value;
    var cq := Cutoff(now, LookbackDays(q).value).value;
    FilterMonotone(records, OnOrAfter(cp), OnOrAfter(cq));
  }

  /** The keys of a GET response object. */
  datatype ViewKey = IdKey | DateKey | MemoKey | DescriptionKey | CategoryLevel1Key | CategoryKey
                   | TypeKey | AmountKey | SourceKey

  function ViewKeyName(k: ViewKey): string
  {
    match k
    case IdKey => "id"
    case DateKey => "Transaction Date"
    case MemoKey => "Memo"
    case DescriptionKey => "Description"
    case CategoryLevel1Key => "category_level1"
    case CategoryKey => "Category"
    case TypeKey => "Type"
    case AmountKey => "Amount"
    case SourceKey => "Source"
  }

  /** One object of the GET response. */
  function View(r: TransactionRecord): map<ViewKey, Value>
  {
    map k | k in AllViewKeys :: ViewValue(r, k)
  }

  const AllViewKeys: set<ViewKey> := {
    IdKey, DateKey, MemoKey, DescriptionKey, CategoryLevel1Key, CategoryKey, TypeKey, AmountKey, SourceKey
  }

  /** The value the loop writes under one key. */
  function ViewValue(r: TransactionRecord, k: ViewKey): Value
  {
    match k
    case IdKey => Num(r.transactionId)
    case DateKey => Str(FormatDateTime(r.transactionDate))
    case MemoKey => FromOption(r.notes)
    case DescriptionKey => Str(r.description)
    case CategoryLevel1Key => Str(r.categoryLevel1)
    case CategoryKey => Str(r.categoryLevel2)
    case TypeKey => Str(r.typeName)
    case AmountKey => Num(r.amount)
    case SourceKey => Str(r.source)
  }

  /** The GET object shows the text columns serialize writes, under other names. */
  lemma ViewAgreesWithSerializeOnText(r: TransactionRecord)
    ensures View(r)[MemoKey] == Serialize(r)[NotesColumn]
    ensures View(r)[DescriptionKey] == Serialize(r)[DescriptionColumn]
    ensures View(r)[CategoryLevel1Key] == Serialize(r)[CategoryLevel1Column]
    ensures View(r)[CategoryKey] == Serialize(r)[CategoryLevel2Column]
  {
  }

  /** The GET object shows the id, type, amount and source serialize writes, under other names. */
  lemma ViewAgreesWithSerializeOnOthers(r: TransactionRecord)
    ensures View(r)[IdKey] == Serialize(r)[TransactionIdColumn]
    ensures View(r)[TypeKey] == Serialize(r)[TypeColumn]
    ensures View(r)[AmountKey] == Serialize(r)[AmountColumn]
    ensures View(r)[SourceKey] == Serialize(r)[SourceColumn]
  {
  }

  /** The GET date keeps the time of day; cut to its first ten characters it is the serialized date. */
  lemma ViewDateExtendsSerializedDate(r: TransactionRecord)
    ensures View(r)[DateKey].Str? && Serialize(r)[TransactionDateColumn].Str?
    ensures View(r)[DateKey].s[..10] == Serialize(r)[TransactionDateColumn].s
  {
    DumpDateIsPrefix(Some(r.transactionDate));
    assert View(r)[DateKey] == Str(FormatDateTime(r.transactionDate));
    assert Serialize(r)[TransactionDateColumn] == Str(DumpDate(Some(r.transactionDate)).value);
  }

  /** Transaction.get: one view object per listed row, in order. */
  method Get(period: string, now: DateTime, records: seq<TransactionRecord>)
    returns (r: Result<seq<map<ViewKey, Value>>>)
    ensures Listed(period, now, records).Err? ==> r == Err(Listed(period, now, records).error)
    ensures Listed(period, now, records).Ok? ==>
      r.Ok? && |r.value| == |Listed(period, now, records).value| &&
      forall i :: 0 <= i < |r.value| ==> r.value[i] == View(Listed(period, now, records).value[i])
  {
    var listed := Listed(period, now, records);
    if listed.Err? {
      return Err(listed.error);
    }
    var rows := listed.value;
    var response: seq<map<ViewKey, Value>> := [];
    for i := 0 to |rows|
      invariant |response| == i
      invariant forall j :: 0 <= j < i ==> response[j] == View(rows[j])
    {
      response := response + [View(rows[i])];
    }
    return Ok(response);
  }

  // ----------------------------------------------------------------- POST

  /** The status line and JSON string body of a reply. */
  datatype Reply = Reply(status: int, message: string)

  const SuccessText: string := "Upload files successfully."

  function FailText(e: Error): string
  {
    "Upload files failed. " + ErrorText(e)
  }

  /** records.get(...) on an element that is not an object. */
  function NoGet(v: Value): Error
  {
    AttributeError("'" + PyTypeName(v) + "' object has no attribute 'get'")
  }

  /** `for records in request_body` over a body that cannot be iterated. */
  function NotIterable(v: Value): Error
  {
    TypeError("'" + PyTypeName(v) + "' object is not iterable")
  }

  /** records.get(key, ""). */
  function Field(fields: map<string, Value>, key: string): (v: Value)
    ensures key in fields ==> v == fields[key]
    ensures key !in fields ==> v == Str("")
  {
    if key in fields then fields[key] else Str("")
  }

  /** The TransactionModel one uploaded object becomes. */
  function NewModel(fields: map<string, Value>, now: DateTime, systemUser: string): TransactionModel
  {
    TransactionModel(
      transactionDate := Field(fields, "transaction_date"),
      description := Field(fields, "description"),
      notes := Field(fields, "notes"),
      categoryLevel1 := Field(fields, "category_level1"),
      categoryLevel2 := Field(fields, "category_level2"),
      typeName := Field(fields, "type"),
      amount := Field(fields, "amount"),
      source := Field(fields, "source"),
      createdAt := Str(FormatDateTime(now)),
      createdBy := Str(systemUser),
      modifiedAt := Str(FormatDateTime(now)),
      modifiedBy := Str(systemUser))
  }

  /** The keys of an uploaded object that end up in NOT NULL columns. */
  const RequiredKeys: set<string> :=
    {"transaction_date", "description", "category_level1", "category_level2", "type", "amount", "source"}

  /** A missing key defaults to "", so only an explicit JSON null breaks a NOT NULL column. */
  lemma NewModelNotNull(fields: map<string, Value>, now: DateTime, systemUser: string)
    ensures SatisfiesNotNull(NewModel(fields, now, systemUser)) <==>
      forall k :: k in RequiredKeys && k in fields ==> fields[k] != Null
  {
  }

  /** Every uploaded model carries the system user and the request time in both audit pairs. */
  lemma UploadAuditFields(body: Value, now: DateTime, systemUser: string)
    ensures forall m :: m in BuildModels(body, now, systemUser).added ==>
      m.createdBy == m.modifiedBy == Str(systemUser) &&
      m.createdAt == m.modifiedAt == Str(FormatDateTime(now))
  {
  }

  /** The index of the first element that is not an object (|items| when there is none). */
  function FirstNonObject(items: seq<Value>): (k: nat)
    ensures k <= |items|
    ensures forall j :: 0 <= j < k ==> items[j].Object?
    ensures k < |items| ==> !items[k].Object?
  {
    if items == [] || !items[0].Object? then 0 else 1 + FirstNonObject(items[1..])
  }

  /** The models built from a run of objects. */
  function ObjectModels(objects: seq<Value>, now: DateTime, systemUser: string): (ms: seq<TransactionModel>)
    requires forall j :: 0 <= j < |objects| ==> objects[j].Object?
    ensures |ms| == |objects|
    ensures forall j :: 0 <= j < |objects| ==> ms[j] == NewModel(objects[j].fields, now, systemUser)
  {
    seq(|objects|, j requires 0 <= j < |objects| => NewModel(objects[j].fields, now, systemUser))
  }

  /** What the loop over the body adds to the session before it stops, and why it stopped early. */
  datatype Upload = Upload(added: seq<TransactionModel>, failure: Option<Error>)

  function BuildModels(body: Value, now: DateTime, systemUser: string): (u: Upload)
    ensures body.List? && u.failure.None? ==> |u.added| == |body.items|
    ensures !body.List? ==> u.added == []
  {
    match body
    case List(items) =>
      var k := FirstNonObject(items);
      Upload(ObjectModels(items[..k], now, systemUser), if k < |items| then Some(NoGet(items[k])) else None)
    case Object(fields) => Upload([], if fields == map[] then None else Some(NoGet(Str(""))))
    case Str(s) => Upload([], if s == "" then None else Some(NoGet(Str(""))))
    case _ => Upload([], Some(NotIterable(body)))
  }

  /**
   * The `for records in request_body` loop of Transaction.post: one
   * session.add per element until an element is not an object.
   */
  method AddUploaded(session: Session, body: Value, now: DateTime, systemUser: string)
    returns (failure: Option<Error>)
    modifies session
    ensures failure == BuildModels(body, now, systemUser).failure
    ensures session.pending == old(session.pending) + BuildModels(body, now, systemUser).added
    ensures session.stored == old(session.stored) && session.inactive == old(session.inactive)
  {
    match body {
      case List(items) =>
        var i := 0;
        while i < |items|
          invariant 0 <= i <= |items|
          invariant forall j :: 0 <= j < i ==> items[j].Object?
          invariant session.pending == old(session.pending) + ObjectModels(items[..i], now, systemUser)
          invariant session.stored == old(session.stored) && session.inactive == old(session.inactive)
        {
          if !items[i].Object? {
            assert FirstNonObject(items) == i;
            return Some(NoGet(items[i]));
          }
          assert ObjectModels(items[..i + 1], now, systemUser) ==
                 ObjectModels(items[..i], now, systemUser) + [NewModel(items[i].fields, now, systemUser)];
          session.Add(NewModel(items[i].fields, now, systemUser));
          i := i + 1;
        }
        assert FirstNonObject(items) == i;
        return None;
      case Object(fields) =>
        return if fields == map[] then None else Some(NoGet(Str("")));
      case Str(s) =>
        return if s == "" then None else Some(NoGet(Str("")));
      case _ =>
        return Some(NotIterable(body));
    }
  }

  /**
   * Transaction.post as written: add one model per element, commit, and
   * turn any exception into a 400 reply without rolling back.
   */
  method Post(session: Session, body: Value, now: DateTime, systemUser: string, refusal: Option<string>)
    returns (reply: Reply)
    requires session.Valid() && session.Clean()
    modifies session
    ensures session.Valid()
    ensures var u := BuildModels(body, now, systemUser);
      u.failure.Some? ==>
        reply == Reply(400, FailText(u.failure.value)) &&
        session.stored == old(session.stored) && session.pending == u.added && !session.inactive
    ensures var u := BuildModels(body, now, systemUser);
      var e := CommitOutcome(u.added, refusal);
      u.failure.None? && e.None? ==>
        reply == Reply(200, SuccessText) && session.stored == old(session.stored) + u.added && session.Clean()
    ensures var u := BuildModels(body, now, systemUser);
      var e := CommitOutcome(u.added, refusal);
      u.failure.None? && e.Some? ==>
        reply == Reply(400, FailText(e.value)) && session.stored == old(session.stored) && session.inactive
  {
    ghost var u := BuildModels(body, now, systemUser);
    var failure := AddUploaded(session, body, now, systemUser);
    assert failure == u.failure && session.pending == u.added;
    if failure.Some? {
      return Reply(400, FailText(failure.value));
    }
    var e := session.Commit(refusal);
    if e.Some? {
      return Reply(400, FailText(e.value));
    }
    return Reply(200, SuccessText);
  }

  /**
   * Transaction.post with the rollback its except branch lacks: a failure
   * drops everything this request added before replying 400.
   */
  method PostWithRollback(session: Session, body: Value, now: DateTime, systemUser: string,
                          refusal: Option<string>) returns (reply: Reply)
    requires session.Valid() && session.Clean()
    modifies session
    ensures session.Valid() && session.Clean()
    ensures var u := BuildModels(body, now, systemUser);
      var e := if u.failure.Some? then u.failure else CommitOutcome(u.added, refusal);
      (e.None? ==> reply == Reply(200, SuccessText) && session.stored == old(session.stored) + u.added) &&
      (e.Some? ==> reply == Reply(400, FailText(e.value)) && session.stored == old(session.stored))
  {
    ghost var u := BuildModels(body, now, systemUser);
    var failure := AddUploaded(session, body, now, systemUser);
    assert failure == u.failure && session.pending == u.added;
    if failure.Some? {
      session.Rollback();
      return Reply(400, FailText(failure.value));
    }
    var e := session.Commit(refusal);
    if e.Some? {
      session.Rollback();
      return Reply(400, FailText(e.value));
    }
    return Reply(200, SuccessText);
  }

  // ------------------------------------------------------ whole requests

  /**
   * What a POST request leaves in the table and what the client receives,
   * the request wrapper included. An exception escaping the wrapper is a
   * 500 reply.
   */
  datatype Outcome = Outcome(stored: seq<TransactionModel>, reply: Reply)

  /** The request as written: the wrapper commits whatever the failed loop had added. */
  function PostOutcome(stored: seq<TransactionModel>, body: Value, now: DateTime, systemUser: string,
                       refusal: Option<string>): Outcome
  {
    var u := BuildModels(body, now, systemUser);
    var e := CommitOutcome(u.added, refusal);
    match u.failure
    case Some(f) =>
      if e.None? then Outcome(stored + u.added, Reply(400, FailText(f)))
      else Outcome(stored, Reply(500, ErrorText(e.value)))
    case None =>
      if e.None? then Outcome(stored + u.added, Reply(200, SuccessText))
      else Outcome(stored, Reply(500, PendingRollbackText))
  }

  /** The request with the rollback: all of the upload or none of it. */
  function FixedPostOutcome(stored: seq<TransactionModel>, body: Value, now: DateTime, systemUser: string,
                            refusal: Option<string>): Outcome
  {
    var u := BuildModels(body, now, systemUser);
    match u.failure
    case Some(f) => Outcome(stored, Reply(400, FailText(f)))
    case None =>
      var e := CommitOutcome(u.added, refusal);
      if e.None? then Outcome(stored + u.added, Reply(200, SuccessText))
      else Outcome(stored, Reply(400, FailText(e.value)))
  }

  /** A POST request as served: the handler as written inside DBSession.class_method. */
  method HandlePost(session: Session, body: Value, now: DateTime, systemUser: string, refusal: Option<string>)
    returns (reply: Reply)
    requires session.Valid() && session.Clean()
    modifies session
    ensures session.Valid() && session.Clean()
    ensures Outcome(session.stored, reply) == PostOutcome(old(session.stored), body, now, systemUser, refusal)
  {
    ghost var stored0 := session.stored;
    reply := Post(session, body, now, systemUser, refusal);
    var e := session.EndRequest(None, refusal);
    if e.Some? {
      reply := Reply(500, ErrorText(e.value));
    }
    PostOutcomeCases(stored0, body, now, systemUser, refusal);
  }

  /** The four ends of a request as written, one per combination of loop failure and commit refusal. */
  lemma PostOutcomeCases(stored: seq<TransactionModel>, body: Value, now: DateTime, systemUser: string,
                         refusal: Option<string>)
    ensures var u := BuildModels(body, now, systemUser);
      var e := CommitOutcome(u.added, refusal);
      var o := PostOutcome(stored, body, now, systemUser, refusal);
      (u.failure.Some? && e.None? ==> o == Outcome(stored + u.added, Reply(400, FailText(u.failure.value)))) &&
      (u.failure.Some? && e.Some? ==> o == Outcome(stored, Reply(500, ErrorText(e.value)))) &&
      (u.failure.None? && e.None? ==> o == Outcome(stored + u.added, Reply(200, SuccessText))) &&
      (u.failure.None? && e.Some? ==> o == Outcome(stored, Reply(500, PendingRollbackText)))
  {
  }

  /** A POST request served by the handler with the rollback. */
  method HandlePostFixed(session: Session, body: Value, now: DateTime, systemUser: string,
                         refusal: Option<string>) returns (reply: Reply)
    requires session.Valid() && session.Clean()
    modifies session
    ensures session.Valid() && session.Clean()
    ensures Outcome(session.stored, reply) == FixedPostOutcome(old(session.stored), body, now, systemUser, refusal)
  {
    reply := PostWithRollback(session, body, now, systemUser, refusal);
    var e := session.EndRequest(None, refusal);
  }

  /**
   * As written, an array whose leading objects the database accepts and
   * which then holds a non-object is answered "Upload files failed." (400)
   * while those leading objects are committed anyway, one row each.
   */
  lemma PartialUploadCommittedDespiteFailure(stored: seq<TransactionModel>, items: seq<Value>, now: DateTime,
                                             systemUser: string, refusal: Option<string>)
    requires 0 < FirstNonObject(items) < |items|
    requires CommitOutcome(ObjectModels(items[..FirstNonObject(items)], now, systemUser), refusal).None?
    ensures var k := FirstNonObject(items);
      var o := PostOutcome(stored, List(items), now, systemUser, refusal);
      o.reply == Reply(400, FailText(NoGet(items[k]))) &&
      o.stored == stored + ObjectModels(items[..k], now, systemUser) && |o.stored| == |stored| + k
  {
  }

  /** A row every column of which has the type the table declares. */
  const SampleRow: map<string, Value> := map[
    "transaction_date" := Str("2024-01-05"), "description" := Str("Weekly shop"),
    "category_level1" := Str("Food"), "category_level2" := Str("Groceries"),
    "type" := Str("Sale"), "amount" := Num(5), "source" := Str("Card")]

  /**
   * The body [SampleRow, 1] meets the conditions above: the loop adds the
   * model of SampleRow, stops at 1, and a database that accepts the row
   * commits it.
   */
  lemma UploadOfRowThenNumber(now: DateTime, systemUser: string)
    ensures var items := [Object(SampleRow), Num(1)];
      FirstNonObject(items) == 1 &&
      ObjectModels(items[..1], now, systemUser) == [NewModel(SampleRow, now, systemUser)] &&
      CommitOutcome([NewModel(SampleRow, now, systemUser)], None).None?
  {
    var items := [Object(SampleRow), Num(1)];
    assert FirstNonObject(items) == 1 by {
      assert FirstNonObject(items[1..]) == 0;
    }
    assert items[..1] == [Object(SampleRow)];
    SampleRowNotNull(now, systemUser);
  }

  lemma SampleRowNotNull(now: DateTime, systemUser: string)
    ensures SatisfiesNotNull(NewModel(SampleRow, now, systemUser))
  {
    NewModelNotNull(SampleRow, now, systemUser);
    forall k | k in RequiredKeys && k in SampleRow ensures SampleRow[k] != Null {
    }
  }

  /** With the rollback, a request stores its whole upload when it answers 200 and nothing otherwise. */
  lemma FixedPostIsAllOrNothing(stored: seq<TransactionModel>, body: Value, now: DateTime, systemUser: string,
                                refusal: Option<string>)
    ensures var o := FixedPostOutcome(stored, body, now, systemUser, refusal);
      var u := BuildModels(body, now, systemUser);
      (o.reply.status == 200 <==> u.failure.None? && CommitOutcome(u.added, refusal).None?) &&
      (o.reply.status == 200 ==> o.stored == stored + u.added && o.reply.message == SuccessText) &&
      (o.reply.status != 200 ==> o.stored == stored && o.reply.status == 400)
  {
  }

  /** A 200 reply means every element of the array became one new row, in order. */
  lemma AcceptedUploadStoresEveryElement(stored: seq<TransactionModel>, items: seq<Value>, now: DateTime,
                                         systemUser: string, refusal: Option<string>)
    requires FixedPostOutcome(stored, List(items), now, systemUser, refusal).reply.status == 200
    ensures var o := FixedPostOutcome(stored, List(items), now, systemUser, refusal);
      |o.stored| == |stored| + |items| &&
      forall j :: 0 <= j < |items| ==>
        items[j].Object? && o.stored[|stored| + j] == NewModel(items[j].fields, now, systemUser)
  {
    assert items[..|items|] == items;
  }
}
